=== FILE: README.md ===
# Phonetic syllable segmentation, modelled in Dafny

This project models the two syllable segmenters of `SyllCraft.py` and proves
properties about them. Both take an IPA transcription (a string of phonetic
symbols) and split it into syllables:

* **nucleus grouping** (`divide_into_syllables`) opens a new syllable at
  every vowel or diphthong after the word's first one. Every consonant
  stays with the syllable in progress.
* **SSP-MOP** (`divide_into_syllables_SSP`, Sonority Sequencing with the
  Maximal Onset Principle) closes a syllable at every vowel or diphthong.
  A consonant is held as an onset when the next symbol starts a nucleus.
  Otherwise it is a coda: it closes the syllable in progress, or joins
  the last completed syllable, or, before any syllable exists, starts the
  first one.

`count_syllables` is the length of the nucleus-grouping result.

The transcription is a parameter. The grapheme-to-phoneme conversion that
produces it is not modelled.

## Layout

| file | module | contents |
|---|---|---|
| `inventory.dfy` | `Inventory` | the vowel, diphthong and consonant inventories; the class of the phone at a position |
| `seqs.dfy` | `Seqs` | concatenation of a sequence of sequences (`Flatten`), and extending the last inner sequence |
| `phones.dfy` | `Phones` | a phone is a class plus its symbols; the greedy left-to-right tokenization `Tokenize` that both scans perform |
| `grouping.dfy` | `Grouping` | nucleus grouping as a state machine over phones (`Segment`), with its properties; `DivideIntoSyllables` and `CountSyllables`, the index loops over the string |
| `ssp.dfy` | `Ssp` | SSP-MOP as a state machine over phones with one phone of lookahead, with its properties; `ScanPhone` and `DivideIntoSyllablesSsp`, the index loop over the string |
| `compare.dfy` | `Compare` | the two segmenters side by side |
| `examples.dfy` | `Examples` | concrete words worked through tokenization and both segmenters by proof |

Each segmenter has two levels:

* **Reference level.** `Tokenize(w)` cuts the transcription into phones. At
  each position it tries a listed diphthong first, then a vowel, then a
  consonant. Anything else is an `Unknown` phone of one symbol. A pure
  state machine (`Grouping.Segment`, `Ssp.Segment`) then groups the phones
  into syllables. The general properties are proved at this level.
* **Loop level.** The methods `Grouping.DivideIntoSyllables` and
  `Ssp.DivideIntoSyllablesSsp` are the source's index loops over the
  string. They have the same branches, the same lookahead test on raw
  symbols and the same retroactive append. Each is proved to return
  `SpellEach(Segment(Tokenize(w)))`, the reference result spelled out as
  strings. The loop's ghost state is the reference state machine.

Helper functions used in the contracts:

* `Kept(w)` is the transcription with the symbols the scans skip removed.
* `NucleusCount(w)` is the number of vowel and diphthong phones.

## Model

| member | source | states |
|---|---|---|
| Inventory.ClassAt | syllable-segmentation/SyllCraft.py:44-70 | The class at a position: a diphthong exactly when the listed pair starts there; otherwise a vowel or a consonant by single-symbol membership; otherwise unknown. The phone always fits inside the string. |
| Phones.TokenizeFrom | syllable-segmentation/SyllCraft.py:44-70 | The scan covers every symbol from position i on exactly once, in order. Every phone it reads is well formed for its class. |
| Phones.Tokenize | syllable-segmentation/SyllCraft.py:88-119 | Spelling the phones of the whole transcription gives back the transcription. |
| Phones.TokenizeGreedy | syllable-segmentation/SyllCraft.py:48-57 | The diphthong test comes first, so no listed pair is split between a one-symbol phone and the phone after it. |
| Phones.OnsetAhead | syllable-segmentation/SyllCraft.py:105 | The raw lookahead (the next symbol is a vowel, or the next two are a listed diphthong) holds exactly when the next phone is a nucleus. |
| Phones.TokenizeSnoc | syllable-segmentation/SyllCraft.py:66-68 | Appending a consonant symbol that completes no diphthong appends one consonant phone and leaves the earlier phones as they were. |
| Grouping.Segment | syllable-segmentation/SyllCraft.py:44-74 | The nucleus-grouping scan over phones, branch by branch: a nucleus after the first opens a new syllable, consonants join the syllable in progress, unknown phones are skipped. `Grouping.DivideIntoSyllables` is proved equal to it. Concatenating its syllables gives exactly the classified phones, in scan order. |
| Grouping.Shape | syllable-segmentation/SyllCraft.py:48-67 | Every syllable is non-empty. Every syllable after the first begins with a nucleus. When the word has a nucleus, each syllable holds exactly one. |
| Grouping.Count | syllable-segmentation/SyllCraft.py:48-74 | The number of syllables is the number of nuclei, or 1 for a word of consonants only, or 0 when nothing is classified. |
| Grouping.IgnoresUnknown | syllable-segmentation/SyllCraft.py:69-70 | Removing the unknown phones does not change the result. |
| Grouping.TrailingConsonant | syllable-segmentation/SyllCraft.py:66-68 | A consonant added at the end joins the last syllable, or forms the only syllable when nothing else is classified. |
| Grouping.TrailingConsonantSymbol | syllable-segmentation/SyllCraft.py:66-74 | The same on strings: the consonant symbol is appended to the last spelled syllable. |
| Grouping.ScanPhone | syllable-segmentation/SyllCraft.py:44-70 | One pass of the loop body advances past exactly one phone (2 symbols for a diphthong, else 1). It updates the spelled syllables and the first-nucleus flag as the reference step does. |
| Grouping.DivideIntoSyllables | syllable-segmentation/SyllCraft.py:31-76 | The index loop returns the reference result spelled out. Its concatenation is `Kept(w)`. Its syllables are non-empty. Every later syllable starts with a vowel or diphthong symbol, never a consonant. Its length is the expected count. |
| Grouping.CountSyllables | syllable-segmentation/SyllCraft.py:127-129 | The count is one per nucleus, or 1 for a word of consonants, or 0. It is 0 exactly when nothing is classified. |
| Ssp.Segment | syllable-segmentation/SyllCraft.py:88-123 | The SSP-MOP scan over phones with one phone of lookahead, branch by branch. `Ssp.DivideIntoSyllablesSsp` is proved equal to it. Concatenating its syllables gives exactly the classified phones, in scan order. The retroactive append only happens with nothing in progress, so it keeps the order. |
| Ssp.Shape | syllable-segmentation/SyllCraft.py:92-117 | Every syllable is non-empty and holds at most one nucleus. Every syllable after the first holds exactly one. |
| Ssp.Count | syllable-segmentation/SyllCraft.py:92-123 | There are at least as many syllables as nuclei and at most one more. There are none exactly when nothing is classified. |
| Ssp.TrailingCoda | syllable-segmentation/SyllCraft.py:104-116 | A consonant at the end is a coda. It closes the syllable in progress, or is appended to the last completed syllable, or is the only syllable. In every case it ends up at the end of the last syllable. |
| Ssp.TrailingCodaSymbol | syllable-segmentation/SyllCraft.py:104-123 | The same on strings. |
| Ssp.OnsetJoinsNucleus | syllable-segmentation/SyllCraft.py:104-111 | The maximal onset rule, wherever the pair stands in the word: a consonant right before a vowel or diphthong is held as its onset. The syllables completed before the consonant stay as they are. The next syllable begins with what was in progress, then the consonant, then the nucleus. |
| Ssp.CodaJoinsPrevious | syllable-segmentation/SyllCraft.py:107-116 | The coda rule, wherever the consonant stands in the word: a consonant not followed by a vowel or diphthong joins the last syllable of the phones before it, whether that syllable was still in progress or already complete. The syllables before that one stay as they are. If no syllable precedes it, the consonant begins the first one. |
| Ssp.ScanPhone | syllable-segmentation/SyllCraft.py:89-119 | One pass of the loop body advances past exactly one phone (2 symbols for a diphthong, else 1). It updates the spelled syllables as the reference step with lookahead does. |
| Ssp.DivideIntoSyllablesSsp | syllable-segmentation/SyllCraft.py:78-125 | The index loop returns the reference result spelled out. Its concatenation is `Kept(w)`. |
| Ssp.SyllableFacts | syllable-segmentation/SyllCraft.py:92-123 | The syllables of the spelled reference result are non-empty. Its length is between the nucleus count and one more. It is empty exactly when nothing is classified. |
| Compare.CountsClose | syllable-segmentation/SyllCraft.py:31-125 | SSP never gives fewer syllables than nucleus grouping, and at most one more. |
| Compare.AgreeWithoutNuclei | syllable-segmentation/SyllCraft.py:31-125 | Without a nucleus both segmenters return nothing, or one syllable holding every classified phone. |
| Examples.Apisa | syllable-segmentation/SyllCraft.py:31-125 | /əpɪsə/ is [əp, ɪs, ə] by nucleus grouping and [ə, pɪ, sə] by SSP. |
| Examples.StressBlocksOnset | syllable-segmentation/SyllCraft.py:104-116 | The SSP lookahead reads the next raw symbol. /əpˈə/ is [əp, ə], because the stress mark hides the vowel from /p/. /əpə/ is [ə, pə]. |
| Examples.NucleusLessSyllable | syllable-segmentation/SyllCraft.py:104-116 | SSP splits /spsə/ into [sp, sə]: the first syllable has no nucleus, so there are more syllables than nuclei. |
| Examples.OneNucleusOneSyllable | syllable-segmentation/SyllCraft.py:48-74 | Nucleus grouping keeps /spsə/ whole: the result is the single syllable [spsə]. |
| Examples.DiphthongWhole | syllable-segmentation/SyllCraft.py:47-64 | /aɪə/ contains the overlapping listed pairs aɪ and ɪə. The scan reads aɪ whole, and nucleus grouping gives [aɪ, ə]. |

## Left out

- The conversion from spelling to IPA (`ipa.convert`, lines 33 and 80) is a foreign library. The transcription is the parameter instead.
- `orthographic_syllables` (hyphenation dictionaries), the tkinter input dialog, and the driver loop that prints tables are I/O and foreign code.
- The consonant list at lines 25-26 has a missing comma, so `'y' 'w'` becomes the literal `'yw'`. The loops only test one symbol against the list, and `'y'` and `'w'` are listed again. So the set of symbols it accepts is the plain set modelled here.
- Diphthong atomicity has no lemma of its own. It follows from three facts: each loop returns `SpellEach(Segment(Tokenize(w)))`, a diphthong phone carries both of its symbols, and both `Grouping.ScanPhone` and `Ssp.ScanPhone` advance by the width of the phone they read.
- Ssp has no lemma saying unknown symbols do not matter, unlike `Grouping.IgnoresUnknown`. That claim is false for SSP: the lookahead at line 105 reads the raw next symbol, as `Examples.StressBlocksOnset` shows.
- Python strings are sequences of code points, and so is `string` here. No normalization of the transcription is modelled.

=== FILE: compare.dfy ===
/** The two segmenters side by side, on the same phones. */
module Compare {
  import opened Seqs
  import opened Phones
  import Grouping
  import Ssp

  /** A segmentation with at most one syllable whose syllables concatenate
      to the classified phones is determined by them. */
  lemma AtMostOne(gs: seq<seq<Phone>>, ts: seq<Phone>)
    requires |gs| <= 1 && Flatten(gs) == Known(ts)
    requires gs == [] <==> Known(ts) == []
    ensures gs == if Known(ts) == [] then [] else [Known(ts)]
  {
    if gs != [] {
      assert gs[..0] == [];
      assert gs == [gs[0]];
      assert Flatten(gs) == Flatten(gs[..0]) + gs[0];
      assert Flatten(gs[..0]) == [];
      assert Known(ts) == gs[0];
    }
  }

  /** The SSP scan never finds fewer syllables than nucleus grouping, and at
      most one more: the extra one is a word-initial consonant cluster that
      SSP leaves without a nucleus. */
  lemma CountsClose(ts: seq<Phone>)
    ensures |Grouping.Segment(ts)| <= |Ssp.Segment(ts)| <= |Grouping.Segment(ts)| + 1
  {
    Grouping.Count(ts);
    Ssp.Count(ts);
  }

  /** Without a nucleus both scans give the same answer: nothing, or one
      syllable holding every classified phone. */
  lemma AgreeWithoutNuclei(ts: seq<Phone>)
    requires Nuclei(ts) == 0
    ensures Grouping.Segment(ts) == if Known(ts) == [] then [] else [Known(ts)]
    ensures Ssp.Segment(ts) == Grouping.Segment(ts)
  {
    Grouping.Count(ts);
    var gs := Grouping.Segment(ts);
    assert gs == [] <==> Known(ts) == [];
    AtMostOne(gs, ts);
    Ssp.Count(ts);
    AtMostOne(Ssp.Segment(ts), ts);
  }
}

=== FILE: examples.dfy ===
/** Concrete transcriptions worked through tokenization and both segmenters
    by proof: each lemma fixes a word and states the phones it is cut into
    and the syllables each segmenter gives it. */
module Examples {
  import opened Inventory
  import opened Seqs
  import opened Phones
  import Grouping
  import Ssp

  lemma ClassShift(x: char, v: string, i: nat)
    requires i < |v|
    ensures ClassAt([x] + v, i + 1) == ClassAt(v, i)
    ensures ([x] + v)[i + 1..i + 1 + ClassAt(v, i).Width()] == v[i..i + ClassAt(v, i).Width()]
  {
    var w := [x] + v;
    assert w[i + 1] == v[i];
    assert DiphthongAt(w, i + 1) <==> DiphthongAt(v, i) by {
      if i + 1 < |v| {
        assert w[i + 2] == v[i + 1];
      }
    }
  }

  /** Reading [x] + v from i + 1 reads what v reads from i. */
  lemma {:induction false} TokenizeShift(x: char, v: string, i: nat)
    requires i <= |v|
    ensures TokenizeFrom([x] + v, i + 1) == TokenizeFrom(v, i)
    decreases |v| - i
  {
    if i < |v| {
      var q, j := ShiftHead(x, v, i);
      TokenizeShift(x, v, j);
    } else {
      assert TokenizeFrom([x] + v, i + 1) == [];
    }
  }

  lemma ShiftHead(x: char, v: string, i: nat) returns (q: Phone, j: nat)
    requires i < |v|
    ensures i < j <= |v|
    ensures TokenizeFrom(v, i) == [q] + TokenizeFrom(v, j)
    ensures TokenizeFrom([x] + v, i + 1) == [q] + TokenizeFrom([x] + v, j + 1)
  {
    var w := [x] + v;
    ClassShift(x, v, i);
    q := TokenizeUnfold(v, i);
    j := i + q.cls.Width();
    var p := TokenizeUnfold(w, i + 1);
    assert p == q;
  }

  /** A symbol that does not start a diphthong is one phone. */
  lemma TokenizeSingle(x: char, v: string, c: Class)
    requires !DiphthongAt([x] + v, 0) && ClassAt([x] + v, 0) == c
    ensures Tokenize([x] + v) == [Phone(c, [x])] + Tokenize(v)
  {
    var w := [x] + v;
    assert w[0..1] == [x];
    UnfoldAs(w, 0, Phone(c, [x]));
    TokenizeShift(x, v, 0);
  }

  lemma VowelFirst(x: char, v: string)
    requires x in Vowels && !DiphthongAt([x] + v, 0)
    ensures Tokenize([x] + v) == [Phone(Vowel, [x])] + Tokenize(v)
  {
    TokenizeSingle(x, v, Vowel);
  }

  lemma ConsonantFirst(x: char, v: string)
    requires x in Consonants
    ensures Tokenize([x] + v) == [Phone(Consonant, [x])] + Tokenize(v)
  {
    InventoriesDisjoint();
    TokenizeSingle(x, v, Consonant);
  }

  /** A listed diphthong at the front is one phone of two symbols. */
  lemma DiphthongFirst(x: char, y: char, v: string)
    requires (x, y) in Diphthongs
    ensures Tokenize([x, y] + v) == [Phone(Diphthong, [x, y])] + Tokenize(v)
  {
    var w := [x, y] + v;
    assert w[0] == x && w[1] == y && w[0..2] == [x, y];
    ReadDiphthong(w);
    ShiftTwo(x, y, v);
  }

  lemma ShiftTwo(x: char, y: char, v: string)
    ensures TokenizeFrom([x, y] + v, 2) == Tokenize(v)
  {
    assert [x, y] + v == [x] + ([y] + v);
    TokenizeShift(x, [y] + v, 1);
    TokenizeShift(y, v, 0);
  }

  lemma ReadDiphthong(w: string)
    requires DiphthongAt(w, 0)
    ensures Tokenize(w) == [Phone(Diphthong, w[0..2])] + TokenizeFrom(w, 2)
  {
    assert ClassAt(w, 0) == Diphthong;
    var p := TokenizeUnfold(w, 0);
  }

  lemma UnknownFirst(x: char, v: string)
    requires x !in Vowels && x !in Consonants && !DiphthongAt([x] + v, 0)
    ensures Tokenize([x] + v) == [Phone(Unknown, [x])] + Tokenize(v)
  {
    TokenizeSingle(x, v, Unknown);
  }

  lemma TokenizeApisa(w: string)
    requires w == "əpɪsə"
    ensures Tokenize(w) ==
      [Phone(Vowel, "ə"), Phone(Consonant, "p"), Phone(Vowel, "ɪ"), Phone(Consonant, "s"), Phone(Vowel, "ə")]
  {
    assert w[2..] == "ɪsə";
    TokenizeIsa(w[2..]);
    assert w[1..] == [w[1]] + w[2..];
    ConsonantFirst(w[1], w[2..]);
    assert w == [w[0]] + w[1..];
    VowelFirst(w[0], w[1..]);
  }

  lemma TokenizeIsa(v: string)
    requires v == "ɪsə"
    ensures Tokenize(v) == [Phone(Vowel, "ɪ"), Phone(Consonant, "s"), Phone(Vowel, "ə")]
  {
    assert ('ɪ', 's') !in Diphthongs;
    TokenizeVcv(v);
  }

  /** Vowel, consonant, vowel: three one-symbol phones. */
  lemma TokenizeVcv(v: string)
    requires |v| == 3 && v[0] in Vowels && v[1] in Consonants && v[2] in Vowels
    requires (v[0], v[1]) !in Diphthongs
    ensures Tokenize(v) == [Phone(Vowel, [v[0]]), Phone(Consonant, [v[1]]), Phone(Vowel, [v[2]])]
  {
    assert v[3..] == [];
    assert v[2..] == [v[2]] + v[3..];
    VowelFirst(v[2], v[3..]);
    assert v[1..] == [v[1]] + v[2..];
    ConsonantFirst(v[1], v[2..]);
    assert v == [v[0]] + v[1..];
    VowelFirst(v[0], v[1..]);
  }

  lemma SpellOne(a: Phone)
    ensures Spell([a]) == a.sym
  {
    SpellPush([], a);
  }

  lemma SpellTwo(a: Phone, b: Phone)
    ensures Spell([a, b]) == a.sym + b.sym
  {
    SpellPush([a], b);
    SpellOne(a);
    assert [a] + [b] == [a, b];
  }

  lemma GroupingApisa(e: Phone, p: Phone, i: Phone, s: Phone)
    requires e.cls == Vowel && i.cls == Vowel && p.cls == Consonant && s.cls == Consonant
    ensures Grouping.Segment([e, p, i, s, e]) == [[e, p], [i, s], [e]]
  {
    var g1 := Grouping.State([], [e], false);
    var g2 := Grouping.State([], [e, p], false);
    var g3 := Grouping.State([[e, p]], [i], false);
    var g4 := Grouping.State([[e, p]], [i, s], false);
    var g5 := Grouping.State([[e, p], [i, s]], [e], false);
    assert Grouping.Run(Grouping.Start, [e, p, i, s, e]) == Grouping.Run(g1, [p, i, s, e]) by {
      assert [e, p, i, s, e] == [e] + [p, i, s, e];
      Grouping.RunCons(Grouping.Start, e, [p, i, s, e]);
      assert [] + [e] == [e];
    }
    assert Grouping.Run(g1, [p, i, s, e]) == Grouping.Run(g2, [i, s, e]) by {
      assert [p, i, s, e] == [p] + [i, s, e];
      Grouping.RunCons(g1, p, [i, s, e]);
      assert [e] + [p] == [e, p];
    }
    assert Grouping.Run(g2, [i, s, e]) == Grouping.Run(g3, [s, e]) by {
      assert [i, s, e] == [i] + [s, e];
      Grouping.RunCons(g2, i, [s, e]);
      assert [] + [[e, p]] == [[e, p]];
    }
    assert Grouping.Run(g3, [s, e]) == Grouping.Run(g4, [e]) by {
      assert [s, e] == [s] + [e];
      Grouping.RunCons(g3, s, [e]);
      assert [i] + [s] == [i, s];
    }
    assert Grouping.Run(g4, [e]) == [[e, p], [i, s], [e]] by {
      assert [e] == [e] + [];
      Grouping.RunCons(g4, e, []);
      assert [[e, p]] + [[i, s]] == [[e, p], [i, s]];
      assert Grouping.Step(g4, e) == g5;
      assert [[e, p], [i, s]] + [[e]] == [[e, p], [i, s], [e]];
    }
  }

  lemma SspApisa(e: Phone, p: Phone, i: Phone, s: Phone)
    requires e.cls == Vowel && i.cls == Vowel && p.cls == Consonant && s.cls == Consonant
    ensures Ssp.Segment([e, p, i, s, e]) == [[e], [p, i], [s, e]]
  {
    var g1 := Ssp.State([[e]], []);
    var g2 := Ssp.State([[e]], [p]);
    var g3 := Ssp.State([[e], [p, i]], []);
    var g5 := Ssp.State([[e], [p, i], [s, e]], []);
    assert Ssp.Drive(Ssp.Start, [e, p, i, s, e]) == Ssp.Drive(g1, [p, i, s, e]) by {
      assert [e, p, i, s, e] == [e] + [p, i, s, e];
      Ssp.DriveCons(Ssp.Start, e, [p, i, s, e]);
      assert [] + [e] == [e];
      assert [] + [[e]] == [[e]];
    }
    assert Ssp.Drive(g1, [p, i, s, e]) == Ssp.Drive(g2, [i, s, e]) by {
      assert [p, i, s, e] == [p] + [i, s, e];
      Ssp.DriveCons(g1, p, [i, s, e]);
      assert [] + [p] == [p];
    }
    assert Ssp.Drive(g2, [i, s, e]) == Ssp.Drive(g3, [s, e]) by {
      assert [i, s, e] == [i] + [s, e];
      Ssp.DriveCons(g2, i, [s, e]);
      assert [p] + [i] == [p, i];
      assert [[e]] + [[p, i]] == [[e], [p, i]];
    }
    assert Ssp.Drive(g3, [s, e]) == g5 by {
      SspOnsetLast([[e], [p, i]], s, e);
      assert [[e], [p, i]] + [[s, e]] == [[e], [p, i], [s, e]];
    }
  }

  /** With nothing in progress, a consonant then a vowel at the end form
      one more syllable. */
  lemma SspOnsetLast(d: seq<seq<Phone>>, s: Phone, e: Phone)
    requires s.cls == Consonant && e.cls == Vowel
    ensures Ssp.Drive(Ssp.State(d, []), [s, e]) == Ssp.State(d + [[s, e]], [])
  {
    var g := Ssp.State(d, [s]);
    assert Ssp.Drive(Ssp.State(d, []), [s, e]) == Ssp.Drive(g, [e]) by {
      assert [s, e] == [s] + [e];
      Ssp.DriveCons(Ssp.State(d, []), s, [e]);
      assert [] + [s] == [s];
    }
    assert Ssp.Drive(g, [e]) == Ssp.State(d + [[s, e]], []) by {
      assert [e] == [e] + [];
      Ssp.DriveCons(g, e, []);
      assert [s] + [e] == [s, e];
    }
  }

  /** The two segmenters on /əpɪsə/: nucleus grouping keeps each consonant
      as a coda, SSP makes it the onset of the next syllable. */
  lemma Apisa(w: string)
    requires w == "əpɪsə"
    ensures SpellEach(Grouping.Segment(Tokenize(w))) == ["əp", "ɪs", "ə"]
    ensures SpellEach(Ssp.Segment(Tokenize(w))) == ["ə", "pɪ", "sə"]
  {
    TokenizeApisa(w);
    var e, p, i, s := Phone(Vowel, "ə"), Phone(Consonant, "p"), Phone(Vowel, "ɪ"), Phone(Consonant, "s");
    GroupingApisa(e, p, i, s);
    SspApisa(e, p, i, s);
    SpellOne(e);
    SpellTwo(e, p);
    SpellTwo(i, s);
    SpellTwo(p, i);
    SpellTwo(s, e);
    assert "ə" + "p" == "əp" && "ɪ" + "s" == "ɪs" && "p" + "ɪ" == "pɪ" && "s" + "ə" == "sə";
  }

  /** A stress mark between a consonant and a vowel: the symbol is skipped,
      but it is what the consonant sees when it looks ahead. */
  lemma TokenizeStressed(w: string)
    requires w == "əpˈə"
    ensures Tokenize(w) ==
      [Phone(Vowel, "ə"), Phone(Consonant, "p"), Phone(Unknown, "ˈ"), Phone(Vowel, "ə")]
  {
    assert w[4..] == [];
    assert w[3..] == [w[3]] + w[4..];
    VowelFirst(w[3], w[4..]);
    assert w[2..] == [w[2]] + w[3..];
    UnknownFirst(w[2], w[3..]);
    assert w[1..] == [w[1]] + w[2..];
    ConsonantFirst(w[1], w[2..]);
    assert w == [w[0]] + w[1..];
    VowelFirst(w[0], w[1..]);
  }

  lemma SspStressed(e: Phone, p: Phone, u: Phone)
    requires e.cls == Vowel && p.cls == Consonant && u.cls == Unknown
    ensures Ssp.Segment([e, p, u, e]) == [[e, p], [e]]
  {
    var g1 := Ssp.State([[e]], []);
    var g2 := Ssp.State([[e, p]], []);
    var g4 := Ssp.State([[e, p], [e]], []);
    assert Ssp.Drive(Ssp.Start, [e, p, u, e]) == Ssp.Drive(g1, [p, u, e]) by {
      assert [e, p, u, e] == [e] + [p, u, e];
      Ssp.DriveCons(Ssp.Start, e, [p, u, e]);
      assert [] + [e] == [e];
      assert [] + [[e]] == [[e]];
    }
    assert Ssp.Drive(g1, [p, u, e]) == Ssp.Drive(g2, [u, e]) by {
      assert [p, u, e] == [p] + [u, e];
      Ssp.DriveCons(g1, p, [u, e]);
      var r := ExtendLast([[e]], p);
      assert r == [[e] + [p]];
      assert [e] + [p] == [e, p];
    }
    assert Ssp.Drive(g2, [u, e]) == Ssp.Drive(g2, [e]) by {
      assert [u, e] == [u] + [e];
      Ssp.DriveCons(g2, u, [e]);
    }
    assert Ssp.Drive(g2, [e]) == g4 by {
      assert [e] == [e] + [];
      Ssp.DriveCons(g2, e, []);
      assert [] + [e] == [e];
      assert [[e, p]] + [[e]] == [[e, p], [e]];
    }
  }

  lemma SspUnstressed(e: Phone, p: Phone)
    requires e.cls == Vowel && p.cls == Consonant
    ensures Ssp.Segment([e, p, e]) == [[e], [p, e]]
  {
    var g1 := Ssp.State([[e]], []);
    var g2 := Ssp.State([[e]], [p]);
    var g3 := Ssp.State([[e], [p, e]], []);
    assert Ssp.Drive(Ssp.Start, [e, p, e]) == Ssp.Drive(g1, [p, e]) by {
      assert [e, p, e] == [e] + [p, e];
      Ssp.DriveCons(Ssp.Start, e, [p, e]);
      assert [] + [e] == [e];
      assert [] + [[e]] == [[e]];
    }
    assert Ssp.Drive(g1, [p, e]) == Ssp.Drive(g2, [e]) by {
      assert [p, e] == [p] + [e];
      Ssp.DriveCons(g1, p, [e]);
      assert [] + [p] == [p];
    }
    assert Ssp.Drive(g2, [e]) == g3 by {
      assert [e] == [e] + [];
      Ssp.DriveCons(g2, e, []);
      assert [p] + [e] == [p, e];
      assert [[e]] + [[p, e]] == [[e], [p, e]];
    }
  }

  /** The SSP lookahead reads the next symbol, classified or not: with a
      stress mark in front of the vowel, /p/ is a coda of the first
      syllable rather than the onset of the second. */
  lemma StressBlocksOnset(w: string, v: string)
    requires w == "əpˈə" && v == "əpə"
    ensures SpellEach(Ssp.Segment(Tokenize(w))) == ["əp", "ə"]
    ensures SpellEach(Ssp.Segment(Tokenize(v))) == ["ə", "pə"]
  {
    TokenizeStressed(w);
    assert Tokenize(v) == [Phone(Vowel, "ə"), Phone(Consonant, "p"), Phone(Vowel, "ə")] by {
      assert ('ə', 'p') !in Diphthongs;
      TokenizeVcv(v);
    }
    var e, p, u := Phone(Vowel, "ə"), Phone(Consonant, "p"), Phone(Unknown, "ˈ");
    SspStressed(e, p, u);
    SspUnstressed(e, p);
    SpellOne(e);
    SpellTwo(e, p);
    SpellTwo(p, e);
    assert "ə" + "p" == "əp" && "p" + "ə" == "pə";
  }

  lemma TokenizeSpsa(w: string)
    requires w == "spsə"
    ensures Tokenize(w) ==
      [Phone(Consonant, "s"), Phone(Consonant, "p"), Phone(Consonant, "s"), Phone(Vowel, "ə")]
  {
    assert w[4..] == [];
    assert w[3..] == [w[3]] + w[4..];
    VowelFirst(w[3], w[4..]);
    assert w[2..] == [w[2]] + w[3..];
    ConsonantFirst(w[2], w[3..]);
    assert w[1..] == [w[1]] + w[2..];
    ConsonantFirst(w[1], w[2..]);
    assert w == [w[0]] + w[1..];
    ConsonantFirst(w[0], w[1..]);
  }

  lemma SspSpsa(s: Phone, p: Phone, e: Phone)
    requires s.cls == Consonant && p.cls == Consonant && e.cls == Vowel
    ensures Ssp.Segment([s, p, s, e]) == [[s, p], [s, e]]
  {
    var g1 := Ssp.State([], [s]);
    var g2 := Ssp.State([[s, p]], []);
    var g3 := Ssp.State([[s, p]], [s]);
    var g4 := Ssp.State([[s, p], [s, e]], []);
    assert Ssp.Drive(Ssp.Start, [s, p, s, e]) == Ssp.Drive(g1, [p, s, e]) by {
      assert [s, p, s, e] == [s] + [p, s, e];
      Ssp.DriveCons(Ssp.Start, s, [p, s, e]);
      assert [] + [s] == [s];
    }
    assert Ssp.Drive(g1, [p, s, e]) == Ssp.Drive(g2, [s, e]) by {
      assert [p, s, e] == [p] + [s, e];
      Ssp.DriveCons(g1, p, [s, e]);
      assert [s] + [p] == [s, p];
      assert [] + [[s, p]] == [[s, p]];
    }
    assert Ssp.Drive(g2, [s, e]) == Ssp.Drive(g3, [e]) by {
      assert [s, e] == [s] + [e];
      Ssp.DriveCons(g2, s, [e]);
      assert [] + [s] == [s];
    }
    assert Ssp.Drive(g3, [e]) == g4 by {
      assert [e] == [e] + [];
      Ssp.DriveCons(g3, e, []);
      assert [s] + [e] == [s, e];
      assert [[s, p]] + [[s, e]] == [[s, p], [s, e]];
    }
  }

  lemma GroupingSpsa(s: Phone, p: Phone, e: Phone)
    requires s.cls == Consonant && p.cls == Consonant && e.cls == Vowel
    ensures Grouping.Segment([s, p, s, e]) == [[s, p, s, e]]
  {
    var g1 := Grouping.State([], [s], true);
    var g2 := Grouping.State([], [s, p], true);
    var g3 := Grouping.State([], [s, p, s], true);
    var g4 := Grouping.State([], [s, p, s, e], false);
    assert Grouping.Run(Grouping.Start, [s, p, s, e]) == Grouping.Run(g1, [p, s, e]) by {
      assert [s, p, s, e] == [s] + [p, s, e];
      Grouping.RunCons(Grouping.Start, s, [p, s, e]);
      assert [] + [s] == [s];
    }
    assert Grouping.Run(g1, [p, s, e]) == Grouping.Run(g2, [s, e]) by {
      assert [p, s, e] == [p] + [s, e];
      Grouping.RunCons(g1, p, [s, e]);
      assert [s] + [p] == [s, p];
    }
    assert Grouping.Run(g2, [s, e]) == Grouping.Run(g3, [e]) by {
      assert [s, e] == [s] + [e];
      Grouping.RunCons(g2, s, [e]);
      assert [s, p] + [s] == [s, p, s];
    }
    assert Grouping.Run(g3, [e]) == [[s, p, s, e]] by {
      assert [e] == [e] + [];
      Grouping.RunCons(g3, e, []);
      assert [s, p, s] + [e] == [s, p, s, e];
      assert Grouping.Step(g3, e) == g4;
      assert [] + [[s, p, s, e]] == [[s, p, s, e]];
    }
  }

  /** A word-initial cluster of three consonants: SSP closes the first two
      as a syllable with no nucleus, so its syllables outnumber the nuclei. */
  lemma NucleusLessSyllable(w: string)
    requires w == "spsə"
    ensures SpellEach(Ssp.Segment(Tokenize(w))) == ["sp", "sə"]
  {
    TokenizeSpsa(w);
    var s, p, e := Phone(Consonant, "s"), Phone(Consonant, "p"), Phone(Vowel, "ə");
    SspSpsa(s, p, e);
    SpellTwo(s, p);
    SpellTwo(s, e);
    assert "s" + "p" == "sp" && "s" + "ə" == "sə";
  }

  /** The same word under nucleus grouping: one nucleus, one syllable. */
  lemma OneNucleusOneSyllable(w: string)
    requires w == "spsə"
    ensures SpellEach(Grouping.Segment(Tokenize(w))) == [w]
  {
    TokenizeSpsa(w);
    var s, p, e := Phone(Consonant, "s"), Phone(Consonant, "p"), Phone(Vowel, "ə");
    GroupingSpsa(s, p, e);
    SpellSpsa(s, p, e);
  }

  lemma SpellSpsa(s: Phone, p: Phone, e: Phone)
    requires s == Phone(Consonant, "s") && p == Phone(Consonant, "p") && e == Phone(Vowel, "ə")
    ensures Spell([s, p, s, e]) == "spsə"
  {
    assert [s, p, s, e] == [s, p] + [s, e];
    SpellTwo(s, p);
    SpellTwo(s, e);
    SpellAppend([s, p], [s, e]);
  }

  lemma TokenizeAie(w: string)
    requires w == "aɪə"
    ensures Tokenize(w) == [Phone(Diphthong, "aɪ"), Phone(Vowel, "ə")]
  {
    assert w[3..] == [];
    assert w[2..] == [w[2]] + w[3..];
    VowelFirst(w[2], w[3..]);
    assert w == [w[0], w[1]] + w[2..];
    DiphthongFirst(w[0], w[1], w[2..]);
  }

  lemma GroupingAie(d: Phone, e: Phone)
    requires d.cls == Diphthong && e.cls == Vowel
    ensures Grouping.Segment([d, e]) == [[d], [e]]
  {
    var g1 := Grouping.State([], [d], false);
    var g2 := Grouping.State([[d]], [e], false);
    assert Grouping.Run(Grouping.Start, [d, e]) == Grouping.Run(g1, [e]) by {
      assert [d, e] == [d] + [e];
      Grouping.RunCons(Grouping.Start, d, [e]);
      assert [] + [d] == [d];
    }
    assert Grouping.Run(g1, [e]) == [[d], [e]] by {
      assert [e] == [e] + [];
      Grouping.RunCons(g1, e, []);
      assert [] + [[d]] == [[d]];
      assert Grouping.Step(g1, e) == g2;
      assert [[d]] + [[e]] == [[d], [e]];
    }
  }

  /** /aɪə/ holds two overlapping listed pairs, aɪ and ɪə; the scan takes
      the first and keeps it whole, so the word has two nuclei. */
  lemma DiphthongWhole(w: string)
    requires w == "aɪə"
    ensures SpellEach(Grouping.Segment(Tokenize(w))) == ["aɪ", "ə"]
  {
    TokenizeAie(w);
    var d, e := Phone(Diphthong, "aɪ"), Phone(Vowel, "ə");
    GroupingAie(d, e);
    SpellOne(d);
    SpellOne(e);
  }
}

=== FILE: grouping.dfy ===
/** The nucleus-grouping segmenter.

    Every vowel or diphthong after the word's first nucleus opens a new
    syllable; consonants always join the syllable in progress, so the
    consonants before the first nucleus belong to the first syllable and
    every later consonant is a coda of the syllable before it. Unknown
    symbols are skipped.

    `Step`/`Run` state the scan as a state machine over phones;
    `DivideIntoSyllables` is the index loop over the transcription itself,
    proved to produce the spelling of `Segment(Tokenize(w))`.
 */
module Grouping {
  import opened Inventory
  import opened Seqs
  import opened Phones

  /** Completed syllables, the syllable in progress, and whether the word's
      first nucleus is still to come. */
  datatype State = State(done: seq<seq<Phone>>, cur: seq<Phone>, first: bool)

  const Start := State([], [], true)

  /** One phone of the scan. */
  function Step(s: State, p: Phone): State
  {
    if p.cls.IsNucleus() then
      if s.cur != [] && !s.first then State(s.done + [s.cur], [p], s.first)
      else State(s.done, s.cur + [p], false)
    else if p.cls == Consonant then State(s.done, s.cur + [p], s.first)
    else s
  }

  /** End of the scan: a non-empty syllable in progress is completed. */
  function Finish(s: State): seq<seq<Phone>>
  {
    if s.cur != [] then s.done + [s.cur] else s.done
  }

  function Run(s: State, ts: seq<Phone>): seq<seq<Phone>>
    decreases |ts|
  {
    if ts == [] then Finish(s) else Run(Step(s, ts[0]), ts[1..])
  }

  lemma RunCons(s: State, p: Phone, rest: seq<Phone>)
    ensures Run(s, [p] + rest) == Run(Step(s, p), rest)
  {
    assert ([p] + rest)[1..] == rest;
  }

  lemma StepWellFormed(s: State, p: Phone)
    requires AllWellFormed(s.cur) && WellFormed(p)
    ensures AllWellFormed(Step(s, p).cur)
  {
  }

  /** The syllables, as groups of phones, of a run of phones. Concatenating
      them gives back exactly the classified phones, in order: nothing is
      created, dropped, duplicated or reordered, and only Unknown phones are
      skipped. */
  function Segment(ts: seq<Phone>): (r: seq<seq<Phone>>)
    ensures Flatten(r) == Known(ts)
  {
    RunContent(Start, ts);
    Run(Start, ts)
  }

  /** The expected number of syllables: one per nucleus, or a single
      nucleus-less syllable for a word of consonants, or none at all. */
  function ExpectedCount(nuclei: nat, known: bool): nat
  {
    if nuclei > 0 then nuclei else if known then 1 else 0
  }

  /** The shape every reachable state has. */
  ghost predicate Inv(s: State) {
    && (forall k :: 0 <= k < |s.done| ==> s.done[k] != [] && Nuclei(s.done[k]) == 1)
    && (forall k :: 0 < k < |s.done| ==> s.done[k][0].cls.IsNucleus())
    && (s.first ==> s.done == [] && Nuclei(s.cur) == 0)
    && (!s.first ==> s.cur != [] && Nuclei(s.cur) == 1)
    && (s.done != [] ==> s.cur != [] && s.cur[0].cls.IsNucleus())
  }

  lemma StepInv(s: State, p: Phone)
    requires Inv(s)
    ensures Inv(Step(s, p))
  {
    NucleiAppend(s.cur, [p]);
    NucleiSingle(p);
    var s' := Step(s, p);
    if p.cls.IsNucleus() && s.cur != [] && !s.first {
      assert s'.done == s.done + [s.cur];
      assert forall k :: 0 < k < |s'.done| ==> s'.done[k][0].cls.IsNucleus() by {
        forall k | 0 < k < |s'.done|
          ensures s'.done[k][0].cls.IsNucleus()
        {
          if k < |s.done| {
            assert s'.done[k] == s.done[k];
          } else {
            assert s'.done[k] == s.cur;
          }
        }
      }
    }
  }

  /** Content: the completed syllables, then the one in progress, then the
      classified phones still to be read, in scan order. */
  lemma {:induction false} RunContent(s: State, ts: seq<Phone>)
    ensures Flatten(Run(s, ts)) == Flatten(s.done) + s.cur + Known(ts)
    decreases |ts|
  {
    if ts == [] {
      FinishContent(s);
    } else {
      RunContent(Step(s, ts[0]), ts[1..]);
      ContentCons(s, ts);
    }
  }

  /** The inductive step of `RunContent`. */
  lemma ContentCons(s: State, ts: seq<Phone>)
    requires ts != []
    requires Flatten(Run(Step(s, ts[0]), ts[1..])) ==
               Flatten(Step(s, ts[0]).done) + Step(s, ts[0]).cur + Known(ts[1..])
    ensures Flatten(Run(s, ts)) == Flatten(s.done) + s.cur + Known(ts)
  {
    var p, rest := ts[0], ts[1..];
    var s' := Step(s, p);
    assert Run(s, ts) == Run(s', rest);
    KnownCons(ts);
    StepContent(s, p);
    if p.cls != Unknown {
      Assoc(Flatten(s.done) + s.cur, [p], Known(rest));
    }
  }

  /** One phone is appended, in order, to what has been read, unless it is
      Unknown. */
  lemma StepContent(s: State, p: Phone)
    ensures p.cls == Unknown ==> Step(s, p) == s
    ensures p.cls != Unknown ==>
              Flatten(Step(s, p).done) + Step(s, p).cur == Flatten(s.done) + s.cur + [p]
  {
    if p.cls.IsNucleus() && s.cur != [] && !s.first {
      FlattenAppend(s.done, s.cur);
    }
  }

  lemma FinishContent(s: State)
    ensures Flatten(Finish(s)) == Flatten(s.done) + s.cur
  {
    if s.cur != [] {
      FlattenAppend(s.done, s.cur);
    }
  }

  /** Unknown phones change nothing: the result depends on the classified
      phones alone. */
  lemma {:induction false} RunIgnoresUnknown(s: State, ts: seq<Phone>)
    ensures Run(s, ts) == Run(s, Known(ts))
    decreases |ts|
  {
    if ts != [] {
      var p, rest := ts[0], ts[1..];
      RunIgnoresUnknown(Step(s, p), rest);
      if p.cls == Unknown {
        assert Known(ts) == Known(rest);
        RunIgnoresUnknown(s, rest);
      } else {
        var k := Known(ts);
        assert k == [p] + Known(rest);
        assert k != [] && k[0] == p && k[1..] == Known(rest);
        assert Run(s, k) == Run(Step(s, p), Known(rest));
      }
    }
  }

  lemma IgnoresUnknown(ts: seq<Phone>)
    ensures Segment(ts) == Segment(Known(ts))
  {
    RunIgnoresUnknown(Start, ts);
  }

  lemma {:induction false} RunShape(s: State, ts: seq<Phone>)
    requires Inv(s)
    ensures forall k :: 0 <= k < |Run(s, ts)| ==> Run(s, ts)[k] != []
    ensures forall k :: 0 < k < |Run(s, ts)| ==> Run(s, ts)[k][0].cls.IsNucleus()
    ensures !s.first || Nuclei(ts) > 0 ==>
              forall k :: 0 <= k < |Run(s, ts)| ==> Nuclei(Run(s, ts)[k]) == 1
    decreases |ts|
  {
    if ts != [] {
      StepInv(s, ts[0]);
      RunShape(Step(s, ts[0]), ts[1..]);
    } else if s.cur != [] {
      var r := s.done + [s.cur];
      assert forall k :: 0 <= k < |s.done| ==> r[k] == s.done[k];
    }
  }

  /** Every syllable is non-empty; every syllable after the first begins
      with a nucleus, so a consonant never opens a syllable; and when the
      word has a nucleus at all, every syllable holds exactly one. */
  lemma Shape(ts: seq<Phone>)
    ensures forall k :: 0 <= k < |Segment(ts)| ==> Segment(ts)[k] != []
    ensures forall k :: 0 < k < |Segment(ts)| ==> Segment(ts)[k][0].cls.IsNucleus()
    ensures Nuclei(ts) > 0 ==> forall k :: 0 <= k < |Segment(ts)| ==> Nuclei(Segment(ts)[k]) == 1
  {
    RunShape(Start, ts);
  }

  lemma {:induction false} RunCount(s: State, ts: seq<Phone>)
    requires Inv(s)
    ensures |Run(s, ts)| ==
              if s.first then ExpectedCount(Nuclei(ts), s.cur + Known(ts) != [])
              else |s.done| + 1 + Nuclei(ts)
    decreases |ts|
  {
    if ts != [] {
      var p := ts[0];
      StepInv(s, p);
      RunCount(Step(s, p), ts[1..]);
      if p.cls != Unknown {
        assert Known(ts) == [p] + Known(ts[1..]);
        assert s.cur + Known(ts) == (s.cur + [p]) + Known(ts[1..]);
      }
    }
  }

  /** With at least one nucleus there is one syllable per nucleus; a word of
      consonants only is one syllable; a word with nothing classified has
      none. */
  lemma Count(ts: seq<Phone>)
    ensures |Segment(ts)| == ExpectedCount(Nuclei(ts), Known(ts) != [])
  {
    RunCount(Start, ts);
  }

  lemma {:induction false} RunSnoc(s: State, ts: seq<Phone>, c: Phone)
    requires c.cls == Consonant
    ensures s.cur + Known(ts) != [] ==>
              Run(s, ts) != [] && Run(s, ts + [c]) == ExtendLast(Run(s, ts), c)
    ensures s.cur + Known(ts) == [] ==> Run(s, ts + [c]) == s.done + [[c]]
    decreases |ts|
  {
    if ts == [] {
      assert [] + [c] == [c];
      RunCons(s, c, []);
    } else {
      var p, rest := ts[0], ts[1..];
      assert ts + [c] == [p] + (rest + [c]);
      RunCons(s, p, rest + [c]);
      RunSnoc(Step(s, p), rest, c);
      KnownCons(ts);
    }
  }

  /** A trailing consonant never opens a syllable: it joins the last one,
      or is the only syllable of a word with nothing else classified. */
  lemma TrailingConsonant(ts: seq<Phone>, c: Phone)
    requires c.cls == Consonant
    ensures Segment(ts) == [] <==> Known(ts) == []
    ensures Segment(ts + [c]) ==
              if Known(ts) == [] then [[c]] else ExtendLast(Segment(ts), c)
  {
    RunSnoc(Start, ts, c);
  }

  /** The same, on transcriptions: a consonant symbol added at the end of a
      word (one that does not complete a diphthong) is spelled into the last
      syllable. */
  lemma TrailingConsonantSymbol(w: string, c: char)
    requires c in Consonants
    requires w == [] || (w[|w| - 1], c) !in Diphthongs
    ensures Segment(Tokenize(w)) == [] <==> Kept(w) == []
    ensures SpellEach(Segment(Tokenize(w + [c]))) ==
              if Kept(w) == [] then [[c]]
              else ExtendLast(SpellEach(Segment(Tokenize(w))), c)
  {
    var p := Phone(Consonant, [c]);
    TokenizeSnoc(w, c);
    TrailingConsonant(Tokenize(w), p);
    KeptEmpty(w);
    SpellPush([], p);
    if Kept(w) != [] {
      SpellEachExtendLast(Segment(Tokenize(w)), p);
    }
  }

  /** One pass of the index loop at position i: the phone there is read
      and the syllables are updated as `Step` says, spelled out. */
  method ScanPhone(w: string, i: nat, syllables: seq<string>, current: string, first: bool,
                   ghost g: State)
    returns (next: nat, syllables': seq<string>, current': string, first': bool)
    requires i < |w|
    requires syllables == SpellEach(g.done) && current == Spell(g.cur) && first == g.first
    requires AllWellFormed(g.cur)
    ensures next == i + ClassAt(w, i).Width()
    ensures var g' := Step(g, Phone(ClassAt(w, i), w[i..next]));
            syllables' == SpellEach(g'.done) && current' == Spell(g'.cur) && first' == g'.first
  {
    ghost var p := Phone(ClassAt(w, i), w[i..i + ClassAt(w, i).Width()]);
    SpellEmpty(g.cur);
    SpellPush(g.cur, p);
    SpellEachPush(g.done, g.cur);
    syllables', current', first' := syllables, current, first;
    if DiphthongAt(w, i) {
      assert p.cls == Diphthong && p.sym == w[i..i + 2];
      if current' != [] && !first' {
        syllables' := syllables' + [current'];
        current' := w[i..i + 2];
      } else {
        current' := current' + w[i..i + 2];
        first' := false;
      }
      next := i + 2;
    } else if w[i] in Vowels {
      assert p.cls == Vowel && p.sym == [w[i]];
      if current' != [] && !first' {
        syllables' := syllables' + [current'];
        current' := [w[i]];
      } else {
        current' := current' + [w[i]];
        first' := false;
      }
      next := i + 1;
    } else if w[i] in Consonants {
      assert p.cls == Consonant && p.sym == [w[i]];
      current' := current' + [w[i]];
      next := i + 1;
    } else {
      assert p.cls == Unknown;
      next := i + 1;
    }
  }

  /** The ghost side of one pass of the index loop: the phone at i, where
      the next pass starts, and the scan state carried over. */
  lemma Advance(w: string, i: nat, g: State) returns (p: Phone, next: nat)
    requires i < |w| && AllWellFormed(g.cur)
    requires Run(g, TokenizeFrom(w, i)) == Segment(Tokenize(w))
    ensures next == i + ClassAt(w, i).Width() && next <= |w|
    ensures p == Phone(ClassAt(w, i), w[i..next])
    ensures AllWellFormed(Step(g, p).cur)
    ensures Run(Step(g, p), TokenizeFrom(w, next)) == Segment(Tokenize(w))
  {
    p := TokenizeUnfold(w, i);
    next := i + p.cls.Width();
    RunCons(g, p, TokenizeFrom(w, next));
    StepWellFormed(g, p);
  }

  /** One pass of the index loop together with the scan state it carries:
      the loop invariant holds again at the next position. */
  method Pass(w: string, i: nat, syllables: seq<string>, current: string, first: bool,
              ghost g: State)
    returns (next: nat, syllables': seq<string>, current': string, first': bool, ghost g': State)
    requires i < |w|
    requires syllables == SpellEach(g.done) && current == Spell(g.cur) && first == g.first
    requires AllWellFormed(g.cur)
    requires Run(g, TokenizeFrom(w, i)) == Segment(Tokenize(w))
    ensures i < next <= |w|
    ensures syllables' == SpellEach(g'.done) && current' == Spell(g'.cur) && first' == g'.first
    ensures AllWellFormed(g'.cur)
    ensures Run(g', TokenizeFrom(w, next)) == Segment(Tokenize(w))
  {
    ghost var p, n := Advance(w, i, g);
    next, syllables', current', first' := ScanPhone(w, i, syllables, current, first, g);
    g' := Step(g, p);
  }

  /** The index loop of the segmenter over a transcription `w`. */
  method DivideIntoSyllables(w: string) returns (syllables: seq<string>)
    ensures syllables == SpellEach(Segment(Tokenize(w)))
    ensures Flatten(syllables) == Kept(w)
    ensures forall k :: 0 <= k < |syllables| ==> syllables[k] != []
    ensures forall k :: 0 < k < |syllables| ==>
              StartsWithNucleus(syllables[k]) && syllables[k][0] !in Consonants
    ensures |syllables| == ExpectedCount(NucleusCount(w), Kept(w) != [])
  {
    syllables := [];
    var current: string := [];
    var first := true;
    ghost var g := Start;
    var i := 0;
    while i < |w|
      invariant i <= |w|
      invariant syllables == SpellEach(g.done)
      invariant current == Spell(g.cur)
      invariant first == g.first
      invariant AllWellFormed(g.cur)
      invariant Run(g, TokenizeFrom(w, i)) == Segment(Tokenize(w))
      decreases |w| - i
    {
      i, syllables, current, first, g := Pass(w, i, syllables, current, first, g);
    }
    assert TokenizeFrom(w, i) == [];
    syllables := EndScan(syllables, current, g.done, g.cur);
    SyllableFacts(w, syllables);
  }

  /** The spelled syllables of a transcription keep its classified symbols
      in order, are non-empty, start every later syllable with a nucleus
      symbol, and number as `Count` says. */
  lemma SyllableFacts(w: string, syllables: seq<string>)
    requires syllables == SpellEach(Segment(Tokenize(w)))
    ensures Flatten(syllables) == Kept(w)
    ensures forall k :: 0 <= k < |syllables| ==> syllables[k] != []
    ensures forall k :: 0 < k < |syllables| ==>
              StartsWithNucleus(syllables[k]) && syllables[k][0] !in Consonants
    ensures |syllables| == ExpectedCount(NucleusCount(w), Kept(w) != [])
  {
    var ts := Tokenize(w);
    var gs := Segment(ts);
    Shape(ts);
    Count(ts);
    SpelledGroups(ts, gs);
    SpelledNonEmpty(gs);
    forall k | 0 < k < |gs|
      ensures StartsWithNucleus(Spell(gs[k])) && Spell(gs[k])[0] !in Consonants
    {
      SpellStartsWithNucleus(gs[k]);
    }
  }

  /** count_syllables: the number of nucleus-grouping syllables. */
  method CountSyllables(w: string) returns (n: nat)
    ensures n == ExpectedCount(NucleusCount(w), Kept(w) != [])
    ensures n == 0 <==> Kept(w) == []
  {
    var syllables := DivideIntoSyllables(w);
    n := |syllables|;
    KnownWellFormed(Tokenize(w));
    SpellEmpty(Known(Tokenize(w)));
    if Known(Tokenize(w)) == [] {
      NucleiKnown(Tokenize(w));
    }
  }
}

=== FILE: inventory.dfy ===
/** The closed phone inventories of the segmenter and the classification of
    the phone that starts at a given position of an IPA transcription.

    A listed two-symbol diphthong is tried first, then a one-symbol vowel,
    then a one-symbol consonant; anything else is Unknown and is one symbol
    wide, so a scan always advances.
 */
module Inventory {

  /** Single-symbol monophthongs, including syllabic l and r-coloured schwa. */
  const Vowels: set<char> :=
    {'i', 'ɪ', 'e', 'ɛ', 'æ', 'ə', 'ʌ', 'ɜ', 'ɑ', 'ɒ', 'ɔ', 'o', 'ʊ', 'u', 'ɚ', 'ɫ'}

  /** Two-symbol glide sequences, as pairs of symbols. */
  const Diphthongs: set<(char, char)> :=
    {('a', 'ɪ'), ('a', 'j'), ('a', 'ʊ'), ('e', 'ɪ'), ('e', 'j'), ('o', 'ʊ'),
     ('ɔ', 'ɪ'), ('o', 'j'), ('ɪ', 'ə'), ('e', 'ə'), ('ʊ', 'ə')}

  /** Stops, affricates, fricatives, nasals, liquids and approximants.
      SyllCraft.py's consonant list names the approximants twice and, for a
      missing comma, glues 'y' and 'w' into one two-symbol entry that no
      single symbol can equal; both are listed on their own as well, so the
      set of single symbols it accepts is exactly this one. */
  const Consonants: set<char> :=
    {'p', 'b', 't', 'd', 'k', 'g',
     'ʧ', 'ʤ',
     'f', 'v', 'θ', 'ð', 's', 'z', 'ʃ', 'ʒ', 'h',
     'm', 'n', 'ŋ',
     'l', 'r', 'ɹ', 'w', 'j', 'y'}

  /** The class of one phone. */
  datatype Class = Diphthong | Vowel | Consonant | Unknown {

    /** Vowels and diphthongs are syllable nuclei. */
    predicate IsNucleus() {
      this == Diphthong || this == Vowel
    }

    /** Number of symbols a phone of this class spans. */
    function Width(): nat {
      if this == Diphthong then 2 else 1
    }
  }

  /** A listed diphthong starts at position i of w (both symbols present). */
  predicate DiphthongAt(w: string, i: int) {
    0 <= i && i + 1 < |w| && (w[i], w[i + 1]) in Diphthongs
  }

  /** A syllable-sized string begins with a nucleus symbol: a listed
      diphthong pair or a single vowel. */
  predicate StartsWithNucleus(s: string) {
    DiphthongAt(s, 0) || (|s| > 0 && s[0] in Vowels)
  }

  /** No symbol is both a vowel and a consonant, and no diphthong begins
      with a consonant, so the classes below are mutually exclusive. */
  lemma InventoriesDisjoint()
    ensures Vowels !! Consonants
    ensures forall d :: d in Diphthongs ==> d.0 !in Consonants
  {
  }

  /** Classification of the phone starting at position i of w. */
  function ClassAt(w: string, i: nat): (c: Class)
    requires i < |w|
    ensures i + c.Width() <= |w|
    ensures c == Diphthong <==> DiphthongAt(w, i)
    ensures c.IsNucleus() <==> DiphthongAt(w, i) || w[i] in Vowels
    ensures c == Consonant <==> w[i] in Consonants
    ensures c == Unknown <==> !DiphthongAt(w, i) && w[i] !in Vowels && w[i] !in Consonants
  {
    InventoriesDisjoint();
    if DiphthongAt(w, i) then Diphthong
    else if w[i] in Vowels then Vowel
    else if w[i] in Consonants then Consonant
    else Unknown
  }
}

=== FILE: phones.dfy ===
/** Phones and the greedy left-to-right tokenization of a transcription.

    Both segmenters walk the transcription one phone at a time; this module
    names that walk once, so that the segmenters can be stated as state
    machines over phones and compared with the index loops that do the
    walking themselves.
 */
module Phones {
  import opened Inventory
  import opened Seqs

  /** One phone: its class and the one or two symbols it spans. */
  datatype Phone = Phone(cls: Class, sym: string)

  /** A phone whose symbols belong to the inventory its class names. */
  predicate WellFormed(p: Phone) {
    && |p.sym| == p.cls.Width()
    && match p.cls
       case Diphthong => (p.sym[0], p.sym[1]) in Diphthongs
       case Vowel => p.sym[0] in Vowels
       case Consonant => p.sym[0] in Consonants
       case Unknown => p.sym[0] !in Vowels && p.sym[0] !in Consonants
  }

  predicate AllWellFormed(ts: seq<Phone>) {
    forall k :: 0 <= k < |ts| ==> WellFormed(ts[k])
  }

  /** Every phone of every group is well formed. */
  predicate GroupsWellFormed(gs: seq<seq<Phone>>) {
    forall k :: 0 <= k < |gs| ==> AllWellFormed(gs[k])
  }

  /** The symbols of a run of phones, in order. */
  function Spell(ts: seq<Phone>): string
  {
    if ts == [] then [] else ts[0].sym + Spell(ts[1..])
  }

  /** The phones that are not Unknown, in order. */
  function Known(ts: seq<Phone>): seq<Phone>
  {
    if ts == [] then []
    else (if ts[0].cls == Unknown then [] else [ts[0]]) + Known(ts[1..])
  }

  lemma KnownCons(ts: seq<Phone>)
    requires ts != []
    ensures Known(ts) == if ts[0].cls == Unknown then Known(ts[1..]) else [ts[0]] + Known(ts[1..])
  {
  }

  /** Number of nucleus phones (vowels and diphthongs). */
  function Nuclei(ts: seq<Phone>): nat
  {
    if ts == [] then 0
    else (if ts[0].cls.IsNucleus() then 1 else 0) + Nuclei(ts[1..])
  }

  /** The next phone of a run exists and is a nucleus. */
  predicate Onset(rest: seq<Phone>) {
    rest != [] && rest[0].cls.IsNucleus()
  }

  /** Each group of phones spelled out as a string. */
  function SpellEach(gs: seq<seq<Phone>>): (ss: seq<string>)
    ensures |ss| == |gs|
    ensures forall k :: 0 <= k < |gs| ==> ss[k] == Spell(gs[k])
  {
    seq(|gs|, k requires 0 <= k < |gs| => Spell(gs[k]))
  }

  lemma {:induction false} SpellAppend(a: seq<Phone>, b: seq<Phone>)
    ensures Spell(a + b) == Spell(a) + Spell(b)
    decreases |a|
  {
    if a == [] {
      assert a + b == b;
    } else {
      assert (a + b)[1..] == a[1..] + b;
      SpellAppend(a[1..], b);
    }
  }

  lemma {:induction false} KnownAppend(a: seq<Phone>, b: seq<Phone>)
    ensures Known(a + b) == Known(a) + Known(b)
    decreases |a|
  {
    if a == [] {
      assert a + b == b;
    } else {
      assert (a + b)[1..] == a[1..] + b;
      KnownAppend(a[1..], b);
    }
  }

  /** A single phone holds a nucleus exactly when it is a vowel or a
      diphthong. */
  lemma NucleiSingle(p: Phone)
    ensures Nuclei([p]) == if p.cls.IsNucleus() then 1 else 0
  {
    assert [p][1..] == [];
  }

  lemma {:induction false} NucleiAppend(a: seq<Phone>, b: seq<Phone>)
    ensures Nuclei(a + b) == Nuclei(a) + Nuclei(b)
    decreases |a|
  {
    if a == [] {
      assert a + b == b;
    } else {
      assert (a + b)[1..] == a[1..] + b;
      NucleiAppend(a[1..], b);
    }
  }

  /** Well-formed phones are never empty, so their spelling is empty only
      when there are no phones at all. */
  lemma {:induction false} SpellEmpty(ts: seq<Phone>)
    requires AllWellFormed(ts)
    ensures Spell(ts) == [] <==> ts == []
  {
    if ts != [] {
      assert |ts[0].sym| > 0;
    }
  }

  /** Joining the spelled groups spells the joined groups: spelling commutes
      with concatenation. */
  lemma {:induction false} FlattenSpellEach(gs: seq<seq<Phone>>)
    ensures Flatten(SpellEach(gs)) == Spell(Flatten(gs))
    decreases |gs|
  {
    if gs != [] {
      var n := |gs| - 1;
      assert SpellEach(gs)[..n] == SpellEach(gs[..n]);
      FlattenSpellEach(gs[..n]);
      SpellAppend(Flatten(gs[..n]), gs[n]);
    }
  }

  /** Greedy tokenization of w from position i: at every position the
      diphthong match is preferred, and every position is covered by exactly
      one phone. */
  function TokenizeFrom(w: string, i: nat): (ts: seq<Phone>)
    requires i <= |w|
    ensures Spell(ts) == w[i..]
    ensures AllWellFormed(ts)
    ensures ts != [] ==> ts[0].cls == ClassAt(w, i)
    decreases |w| - i
  {
    if i == |w| then []
    else
      var c := ClassAt(w, i);
      [Phone(c, w[i..i + c.Width()])] + TokenizeFrom(w, i + c.Width())
  }

  /** Two adjacent phones whose first is a single symbol do not spell a
      listed diphthong. */
  predicate NotSplit(p: Phone, q: Phone)
    requires WellFormed(p) && WellFormed(q)
  {
    p.cls != Diphthong ==> (p.sym[0], q.sym[0]) !in Diphthongs
  }

  /** Greediness: the scan never leaves a listed diphthong split across two
      phones, because the pair is tried before either single symbol. */
  lemma {:induction false} TokenizeGreedy(w: string, i: nat)
    requires i <= |w|
    ensures var ts := TokenizeFrom(w, i);
      forall k :: 0 < k < |ts| ==> NotSplit(ts[k - 1], ts[k])
    decreases |w| - i
  {
    if i < |w| {
      var p := TokenizeUnfold(w, i);
      var j := i + p.cls.Width();
      var rest := TokenizeFrom(w, j);
      TokenizeGreedy(w, j);
      if rest != [] {
        assert Spell(rest) == rest[0].sym + Spell(rest[1..]);
        assert rest[0].sym[0] == w[j];
      }
      var ts := TokenizeFrom(w, i);
      forall k | 0 < k < |ts|
        ensures NotSplit(ts[k - 1], ts[k])
      {
        if k > 1 {
          assert ts[k - 1] == rest[k - 2] && ts[k] == rest[k - 1];
        }
      }
    }
  }

  /** The phones of a whole transcription. */
  function Tokenize(w: string): (ts: seq<Phone>)
    ensures Spell(ts) == w
    ensures AllWellFormed(ts)
  {
    TokenizeFrom(w, 0)
  }

  /** The transcription with every Unknown symbol removed. */
  function Kept(w: string): string
  {
    Spell(Known(Tokenize(w)))
  }

  /** Number of vowel and diphthong phones in the transcription. */
  function NucleusCount(w: string): nat
  {
    Nuclei(Tokenize(w))
  }

  /** Dropping Unknown phones keeps only phones of the run. */
  lemma {:induction false} KnownWellFormed(ts: seq<Phone>)
    requires AllWellFormed(ts)
    ensures AllWellFormed(Known(ts))
    ensures forall k :: 0 <= k < |Known(ts)| ==> Known(ts)[k].cls != Unknown
    decreases |ts|
  {
    if ts != [] {
      KnownWellFormed(ts[1..]);
    }
  }

  /** Splitting a well-formed run into groups keeps every group well formed. */
  lemma {:induction false} FlattenWellFormed(gs: seq<seq<Phone>>)
    requires AllWellFormed(Flatten(gs))
    ensures GroupsWellFormed(gs)
    decreases |gs|
  {
    if gs != [] {
      var n := |gs| - 1;
      var pre := Flatten(gs[..n]);
      assert Flatten(gs) == pre + gs[n];
      forall j | 0 <= j < |gs[n]|
        ensures WellFormed(gs[n][j])
      {
        assert gs[n][j] == Flatten(gs)[|pre| + j];
      }
      forall j | 0 <= j < |pre|
        ensures WellFormed(pre[j])
      {
        assert pre[j] == Flatten(gs)[j];
      }
      FlattenWellFormed(gs[..n]);
      assert forall k :: 0 <= k < n ==> gs[k] == gs[..n][k];
    }
  }

  /** Groups that join to the classified phones of a well-formed run
      spell, joined, the classified symbols, and hold well-formed phones. */
  lemma SpelledGroups(ts: seq<Phone>, gs: seq<seq<Phone>>)
    requires AllWellFormed(ts) && Flatten(gs) == Known(ts)
    ensures Flatten(SpellEach(gs)) == Spell(Known(ts))
    ensures GroupsWellFormed(gs)
  {
    FlattenSpellEach(gs);
    KnownWellFormed(ts);
    FlattenWellFormed(gs);
  }

  /** Non-empty groups of well-formed phones are spelled as non-empty
      strings. */
  lemma SpelledNonEmpty(gs: seq<seq<Phone>>)
    requires GroupsWellFormed(gs)
    requires forall k :: 0 <= k < |gs| ==> gs[k] != []
    ensures forall k :: 0 <= k < |gs| ==> SpellEach(gs)[k] != []
  {
    forall k | 0 <= k < |gs|
      ensures SpellEach(gs)[k] != []
    {
      SpellEmpty(gs[k]);
    }
  }

  /** No groups exactly when nothing is classified, spelled out. */
  lemma SpelledNone(ts: seq<Phone>, gs: seq<seq<Phone>>)
    requires AllWellFormed(ts)
    requires gs == [] <==> Known(ts) == []
    ensures SpellEach(gs) == [] <==> Spell(Known(ts)) == []
  {
    KnownWellFormed(ts);
    SpellEmpty(Known(ts));
  }

  /** A group that begins with a nucleus phone is spelled with a leading
      vowel or diphthong symbol, which is never a consonant. */
  lemma SpellStartsWithNucleus(g: seq<Phone>)
    requires AllWellFormed(g)
    requires g != [] && g[0].cls.IsNucleus()
    ensures StartsWithNucleus(Spell(g))
    ensures Spell(g)[0] !in Consonants
  {
    InventoriesDisjoint();
    assert Spell(g) == g[0].sym + Spell(g[1..]);
    assert WellFormed(g[0]);
  }

  /** Unknown phones are never nuclei. */
  lemma {:induction false} NucleiKnown(ts: seq<Phone>)
    ensures Nuclei(Known(ts)) == Nuclei(ts)
    decreases |ts|
  {
    if ts != [] {
      NucleiKnown(ts[1..]);
      var head := if ts[0].cls == Unknown then [] else [ts[0]];
      NucleiAppend(head, Known(ts[1..]));
      if head != [] {
        assert head[1..] == [];
      }
    }
  }

  lemma SpellPush(ts: seq<Phone>, p: Phone)
    ensures Spell(ts + [p]) == Spell(ts) + p.sym
    ensures Spell([p]) == p.sym
  {
    SpellAppend(ts, [p]);
    assert [p][1..] == [];
  }

  lemma SpellEachPush(gs: seq<seq<Phone>>, g: seq<Phone>)
    ensures SpellEach(gs + [g]) == SpellEach(gs) + [Spell(g)]
  {
  }

  /** The end of an index loop over a transcription: the syllable in
      progress is added to the list when it is non-empty, both as strings
      and as groups of phones. */
  method EndScan(syllables: seq<string>, current: string,
                 ghost done: seq<seq<Phone>>, ghost cur: seq<Phone>)
    returns (r: seq<string>)
    requires syllables == SpellEach(done) && current == Spell(cur)
    requires AllWellFormed(cur)
    ensures r == SpellEach(if cur != [] then done + [cur] else done)
  {
    SpellEmpty(cur);
    SpellEachPush(done, cur);
    r := syllables;
    if current != [] {
      r := syllables + [current];
    }
  }

  /** The phone read at position i, followed by the rest of the scan. */
  lemma TokenizeUnfold(w: string, i: nat) returns (p: Phone)
    requires i < |w|
    ensures p == Phone(ClassAt(w, i), w[i..i + ClassAt(w, i).Width()])
    ensures WellFormed(p)
    ensures TokenizeFrom(w, i) == [p] + TokenizeFrom(w, i + p.cls.Width())
  {
    p := Phone(ClassAt(w, i), w[i..i + ClassAt(w, i).Width()]);
    assert TokenizeFrom(w, i)[0] == p;
  }

  /** The same, for a phone already known to be the one read at i. */
  lemma UnfoldAs(w: string, i: nat, p: Phone)
    requires i < |w| && p.cls == ClassAt(w, i) && p.sym == w[i..i + p.cls.Width()]
    ensures TokenizeFrom(w, i) == [p] + TokenizeFrom(w, i + p.cls.Width())
  {
    var q := TokenizeUnfold(w, i);
  }

  lemma SpellEachExtendLast(gs: seq<seq<Phone>>, p: Phone)
    requires gs != []
    ensures SpellEach(ExtendLast(gs, p)) == SpellEach(gs)[|gs| - 1 := SpellEach(gs)[|gs| - 1] + p.sym]
  {
    SpellPush(gs[|gs| - 1], p);
    var l := SpellEach(ExtendLast(gs, p));
    forall k | 0 <= k < |gs| - 1
      ensures l[k] == SpellEach(gs)[k]
    {
      assert ExtendLast(gs, p)[k] == ExtendLast(gs, p)[..|gs| - 1][k];
    }
  }

  /** Whether the phone after a one-symbol phone at j - 1 is a nucleus is
      decided by the symbols at j: a vowel there, or a diphthong pair
      starting there. */
  lemma OnsetAhead(w: string, j: nat)
    requires j <= |w|
    ensures Onset(TokenizeFrom(w, j)) <==> j < |w| && (w[j] in Vowels || DiphthongAt(w, j))
  {
  }

  /** Appending a consonant symbol that does not complete a diphthong with
      the last symbol appends one consonant phone and leaves every earlier
      phone as it was. */
  lemma {:induction false} TokenizeFromSnoc(w: string, c: char, i: nat)
    requires c in Consonants
    requires w == [] || (w[|w| - 1], c) !in Diphthongs
    requires i <= |w|
    ensures TokenizeFrom(w + [c], i) == TokenizeFrom(w, i) + [Phone(Consonant, [c])]
    decreases |w| - i
  {
    if i == |w| {
      TokenizeLastConsonant(w, c);
    } else {
      var p, j := SnocHead(w, c, i);
      TokenizeFromSnoc(w, c, j);
      Assoc([p], TokenizeFrom(w, j), [Phone(Consonant, [c])]);
    }
  }

  /** Below the last symbol, the phone read at i is the same with or
      without the appended consonant. */
  lemma SnocHead(w: string, c: char, i: nat) returns (p: Phone, j: nat)
    requires w == [] || (w[|w| - 1], c) !in Diphthongs
    requires i < |w|
    ensures i < j <= |w|
    ensures TokenizeFrom(w, i) == [p] + TokenizeFrom(w, j)
    ensures TokenizeFrom(w + [c], i) == [p] + TokenizeFrom(w + [c], j)
  {
    PhoneSnoc(w, c, i);
    p := TokenizeUnfold(w, i);
    j := i + p.cls.Width();
    UnfoldAs(w + [c], i, p);
  }

  lemma TokenizeLastConsonant(w: string, c: char)
    requires c in Consonants
    ensures TokenizeFrom(w + [c], |w|) == [Phone(Consonant, [c])]
  {
    var w' := w + [c];
    assert w'[|w|] == c && w'[|w|..] == [c];
    TokenizeLast(w');
  }

  lemma TokenizeLast(w: string)
    requires w != [] && w[|w| - 1] in Consonants
    ensures TokenizeFrom(w, |w| - 1) == [Phone(Consonant, w[|w| - 1..])]
  {
    var i := |w| - 1;
    assert ClassAt(w, i) == Consonant;
    var p := TokenizeUnfold(w, i);
    assert p == Phone(Consonant, w[i..]);
    assert TokenizeFrom(w, i + 1) == [];
  }

  lemma PhoneSnoc(w: string, c: char, i: nat)
    requires w == [] || (w[|w| - 1], c) !in Diphthongs
    requires i < |w|
    ensures ClassAt(w + [c], i) == ClassAt(w, i)
    ensures (w + [c])[i..i + ClassAt(w, i).Width()] == w[i..i + ClassAt(w, i).Width()]
  {
    assert DiphthongAt(w + [c], i) <==> DiphthongAt(w, i);
  }

  lemma TokenizeSnoc(w: string, c: char)
    requires c in Consonants
    requires w == [] || (w[|w| - 1], c) !in Diphthongs
    ensures Tokenize(w + [c]) == Tokenize(w) + [Phone(Consonant, [c])]
  {
    TokenizeFromSnoc(w, c, 0);
  }

  /** Nothing of a transcription is classified exactly when its classified
      phones are none. */
  lemma KeptEmpty(w: string)
    ensures Kept(w) == [] <==> Known(Tokenize(w)) == []
  {
    KnownWellFormed(Tokenize(w));
    SpellEmpty(Known(Tokenize(w)));
  }
}

=== FILE: seqs.dfy ===
/** Concatenation of a sequence of sequences, the way a list of syllable
    strings is joined back into one transcription. */
module Seqs {

  /** The elements of every inner sequence, in order. */
  function Flatten<T>(xss: seq<seq<T>>): seq<T>
  {
    if xss == [] then [] else Flatten(xss[..|xss| - 1]) + xss[|xss| - 1]
  }

  lemma FlattenAppend<T>(xss: seq<seq<T>>, ys: seq<T>)
    ensures Flatten(xss + [ys]) == Flatten(xss) + ys
  {
    assert (xss + [ys])[..|xss|] == xss;
  }

  lemma Assoc<T>(a: seq<T>, b: seq<T>, c: seq<T>)
    ensures a + (b + c) == (a + b) + c
  {
  }

  /** The last inner sequence extended by one element. */
  function ExtendLast<T>(xss: seq<seq<T>>, y: T): (r: seq<seq<T>>)
    requires xss != []
    ensures |r| == |xss|
    ensures r[..|xss| - 1] == xss[..|xss| - 1]
    ensures r[|xss| - 1] == xss[|xss| - 1] + [y]
  {
    xss[|xss| - 1 := xss[|xss| - 1] + [y]]
  }

  /** Extending the last inner sequence extends the concatenation. */
  lemma FlattenExtendLast<T>(xss: seq<seq<T>>, y: T)
    requires xss != []
    ensures Flatten(ExtendLast(xss, y)) == Flatten(xss) + [y]
  {
  }

  /** The concatenation is empty exactly when every inner sequence is. */
  lemma FlattenEmpty<T>(xss: seq<seq<T>>)
    requires forall k :: 0 <= k < |xss| ==> xss[k] != []
    ensures Flatten(xss) == [] <==> xss == []
  {
  }
}

=== FILE: ssp.dfy ===
/** The SSP-MOP segmenter (Sonority Sequencing Principle with the Maximal
    Onset Principle).

    Every vowel or diphthong closes the syllable in progress at once. A
    consonant looks one phone ahead: before a nucleus it is held as that
    nucleus's onset; otherwise it is a coda, closing the syllable in
    progress, or — when nothing is in progress — joining the last completed
    syllable, or, at the very start of a word, opening the first syllable.
    Unknown symbols are skipped, but they are still what a consonant sees
    when it looks ahead.

    `Step`/`Drive` state the scan as a state machine over phones;
    `DivideIntoSyllablesSsp` is the index loop over the transcription itself,
    proved to produce the spelling of `Segment(Tokenize(w))`.
 */
module Ssp {
  import opened Inventory
  import opened Seqs
  import opened Phones

  /** Completed syllables and the syllable in progress. */
  datatype State = State(done: seq<seq<Phone>>, cur: seq<Phone>)

  const Start := State([], [])

  /** One phone of the scan; `onset` says whether the next phone is a
      nucleus. */
  function Step(s: State, p: Phone, onset: bool): State
  {
    if p.cls.IsNucleus() then State(s.done + [s.cur + [p]], [])
    else if p.cls == Consonant then
      if onset then State(s.done, s.cur + [p])
      else if s.cur != [] then State(s.done + [s.cur + [p]], [])
      else if s.done != [] then State(ExtendLast(s.done, p), [])
      else State(s.done, s.cur + [p])
    else s
  }

  /** The state after reading every phone of ts, each with the phone after
      it as lookahead. */
  function Drive(s: State, ts: seq<Phone>): State
    decreases |ts|
  {
    if ts == [] then s else Drive(Step(s, ts[0], Onset(ts[1..])), ts[1..])
  }

  /** End of the scan: a non-empty syllable in progress is completed. */
  function Finish(s: State): seq<seq<Phone>>
  {
    if s.cur != [] then s.done + [s.cur] else s.done
  }

  /** The syllables, as groups of phones, of a run of phones. Concatenating
      them gives back exactly the classified phones, in order: nothing is
      created, dropped, duplicated or reordered, and only Unknown phones are
      skipped. */
  function Segment(ts: seq<Phone>): (r: seq<seq<Phone>>)
    ensures Flatten(r) == Known(ts)
  {
    DriveContent(Start, ts);
    FinishContent(Drive(Start, ts));
    Finish(Drive(Start, ts))
  }

  lemma DriveCons(s: State, p: Phone, rest: seq<Phone>)
    ensures Drive(s, [p] + rest) == Drive(Step(s, p, Onset(rest)), rest)
  {
    assert ([p] + rest)[1..] == rest;
  }

  lemma StepWellFormed(s: State, p: Phone, onset: bool)
    requires AllWellFormed(s.cur) && WellFormed(p)
    ensures AllWellFormed(Step(s, p, onset).cur)
  {
  }

  /** Content: the completed syllables, then the one in progress, then the
      classified phones still to be read, in scan order. The retroactive
      coda only happens with nothing in progress, so it keeps the order. */
  lemma {:induction false} DriveContent(s: State, ts: seq<Phone>)
    ensures Flatten(Drive(s, ts).done) + Drive(s, ts).cur == Flatten(s.done) + s.cur + Known(ts)
    decreases |ts|
  {
    if ts != [] {
      var p, rest := ts[0], ts[1..];
      var s' := Step(s, p, Onset(rest));
      DriveContent(s', rest);
      KnownCons(ts);
      if p.cls != Unknown {
        StepContent(s, p, Onset(rest));
        Assoc(Flatten(s.done) + s.cur, [p], Known(rest));
      }
    }
  }

  /** One classified phone is appended, in order, to what has been read. */
  lemma StepContent(s: State, p: Phone, onset: bool)
    requires p.cls != Unknown
    ensures Flatten(Step(s, p, onset).done) + Step(s, p, onset).cur == Flatten(s.done) + s.cur + [p]
  {
    var s' := Step(s, p, onset);
    if s'.done == s.done + [s.cur + [p]] {
      FlattenAppend(s.done, s.cur + [p]);
    } else if s.cur == [] && s.done != [] && s'.done == ExtendLast(s.done, p) {
      FlattenExtendLast(s.done, p);
    } else {
      assert s'.done == s.done && s'.cur == s.cur + [p];
    }
  }

  lemma FinishContent(s: State)
    ensures Flatten(Finish(s)) == Flatten(s.done) + s.cur
  {
    if s.cur != [] {
      FlattenAppend(s.done, s.cur);
    }
  }

  /** The shape of every reachable state, given the phones still to read:
      completed syllables are non-empty with at most one nucleus, and only
      the first may have none; the syllable in progress holds consonants
      only; and once a syllable is complete, something is in progress only
      while it waits for the nucleus that comes next. */
  ghost predicate Inv(s: State, rest: seq<Phone>) {
    && (forall k :: 0 <= k < |s.done| ==> s.done[k] != [] && Nuclei(s.done[k]) <= 1)
    && (forall k :: 0 < k < |s.done| ==> Nuclei(s.done[k]) == 1)
    && Nuclei(s.cur) == 0
    && (s.cur != [] && s.done != [] ==> Onset(rest))
  }

  lemma StepInv(s: State, ts: seq<Phone>)
    requires ts != [] && Inv(s, ts)
    ensures Inv(Step(s, ts[0], Onset(ts[1..])), ts[1..])
  {
    var p, rest := ts[0], ts[1..];
    var s' := Step(s, p, Onset(rest));
    NucleiAppend(s.cur, [p]);
    NucleiSingle(p);
    if s'.done == s.done + [s.cur + [p]] {
      forall k | 0 <= k < |s'.done|
        ensures s'.done[k] != [] && Nuclei(s'.done[k]) <= 1
        ensures k > 0 ==> Nuclei(s'.done[k]) == 1
      {
        if k < |s.done| {
          assert s'.done[k] == s.done[k];
        }
      }
    } else if p.cls == Consonant && !Onset(rest) && s.cur == [] && s.done != [] {
      var n := |s.done| - 1;
      NucleiAppend(s.done[n], [p]);
      forall k | 0 <= k < |s'.done|
        ensures s'.done[k] != [] && Nuclei(s'.done[k]) <= 1
        ensures k > 0 ==> Nuclei(s'.done[k]) == 1
      {
        if k < n {
          assert s'.done[k] == s'.done[..n][k] == s.done[..n][k];
        }
      }
    }
  }

  lemma {:induction false} DriveInv(s: State, ts: seq<Phone>)
    requires Inv(s, ts)
    ensures Inv(Drive(s, ts), [])
    decreases |ts|
  {
    if ts != [] {
      StepInv(s, ts);
      DriveInv(Step(s, ts[0], Onset(ts[1..])), ts[1..]);
    }
  }

  /** Every syllable is non-empty and holds at most one nucleus, and every
      syllable after the first holds exactly one: a nucleus always closes
      its syllable, and only a word-initial consonant cluster can make a
      syllable of consonants alone. */
  lemma Shape(ts: seq<Phone>)
    ensures forall k :: 0 <= k < |Segment(ts)| ==>
              Segment(ts)[k] != [] && Nuclei(Segment(ts)[k]) <= 1
    ensures forall k :: 0 < k < |Segment(ts)| ==> Nuclei(Segment(ts)[k]) == 1
  {
    DriveInv(Start, ts);
    var f := Drive(Start, ts);
    if f.cur != [] {
      assert f.done == [];
      assert Segment(ts) == [f.cur];
    }
  }

  lemma {:induction false} RunCount(s: State, ts: seq<Phone>)
    requires Inv(s, ts)
    ensures |s.done| + Nuclei(ts) <= |Finish(Drive(s, ts))|
    ensures |Finish(Drive(s, ts))| <= |s.done| + Nuclei(ts) + (if s.done == [] then 1 else 0)
    decreases |ts|
  {
    if ts != [] {
      StepInv(s, ts);
      RunCount(Step(s, ts[0], Onset(ts[1..])), ts[1..]);
    }
  }

  /** Every nucleus closes a syllable, so there are at least as many
      syllables as nuclei, and at most one more; the syllables are none
      exactly when nothing was classified. */
  lemma Count(ts: seq<Phone>)
    ensures Nuclei(ts) <= |Segment(ts)| <= Nuclei(ts) + 1
    ensures Segment(ts) == [] <==> Known(ts) == []
  {
    RunCount(Start, ts);
    Shape(ts);
    FlattenEmpty(Segment(ts));
  }

  /** The spelled syllables of a transcription are non-empty, number
      between the nucleus count and one more than it, and are none exactly
      when nothing is classified. */
  lemma SyllableFacts(w: string, syllables: seq<string>)
    requires syllables == SpellEach(Segment(Tokenize(w)))
    ensures forall k :: 0 <= k < |syllables| ==> syllables[k] != []
    ensures NucleusCount(w) <= |syllables| <= NucleusCount(w) + 1
    ensures syllables == [] <==> Kept(w) == []
  {
    var ts := Tokenize(w);
    var gs := Segment(ts);
    Shape(ts);
    Count(ts);
    SpelledGroups(ts, gs);
    SpelledNonEmpty(gs);
    SpelledNone(ts, gs);
  }

  /** A consonant at the end of the phones sees no nucleus after it, and
      the phone before it sees the same lookahead as without it. */
  lemma {:induction false} DriveSnoc(s: State, ts: seq<Phone>, c: Phone)
    requires c.cls == Consonant
    ensures Drive(s, ts + [c]) == Step(Drive(s, ts), c, false)
    decreases |ts|
  {
    if ts == [] {
      assert [] + [c] == [c] + [];
      DriveCons(s, c, []);
    } else {
      var p, rest := ts[0], ts[1..];
      assert ts + [c] == [p] + (rest + [c]);
      DriveCons(s, p, rest + [c]);
      assert Onset(rest + [c]) == Onset(rest) by {
        if rest != [] {
          assert (rest + [c])[0] == rest[0];
        }
      }
      DriveSnoc(Step(s, p, Onset(rest)), rest, c);
    }
  }

  /** A trailing consonant is a coda: it closes the syllable in progress or
      joins the last completed one, or is the only syllable of a word with
      nothing else classified. Either way it ends the last syllable. */
  lemma TrailingCoda(ts: seq<Phone>, c: Phone)
    requires c.cls == Consonant
    ensures Segment(ts) == [] <==> Known(ts) == []
    ensures Segment(ts + [c]) ==
              if Known(ts) == [] then [[c]] else ExtendLast(Segment(ts), c)
  {
    Count(ts);
    DriveSnoc(Start, ts, c);
    var f := Drive(Start, ts);
    if f.cur != [] {
      assert Step(f, c, false) == State(f.done + [f.cur + [c]], []);
      assert Segment(ts) == f.done + [f.cur];
      var e := ExtendLast(f.done + [f.cur], c);
      assert e[..|f.done|] == f.done && e[|f.done|] == f.cur + [c];
      assert e == f.done + [f.cur + [c]];
    } else if f.done != [] {
      assert Step(f, c, false) == State(ExtendLast(f.done, c), []);
    } else {
      assert Step(f, c, false) == State([], [c]);
    }
  }

  /** The same, on transcriptions: a consonant symbol added at the end of a
      word (one that does not complete a diphthong) is spelled into the last
      syllable. */
  lemma TrailingCodaSymbol(w: string, c: char)
    requires c in Consonants
    requires w == [] || (w[|w| - 1], c) !in Diphthongs
    ensures Segment(Tokenize(w)) == [] <==> Kept(w) == []
    ensures SpellEach(Segment(Tokenize(w + [c]))) ==
              if Kept(w) == [] then [[c]]
              else ExtendLast(SpellEach(Segment(Tokenize(w))), c)
  {
    var p := Phone(Consonant, [c]);
    TokenizeSnoc(w, c);
    TrailingCoda(Tokenize(w), p);
    KeptEmpty(w);
    SpellPush([], p);
    if Kept(w) != [] {
      SpellEachExtendLast(Segment(Tokenize(w)), p);
    }
  }

  /** Syllables completed later only add to what is already complete: the
      earlier ones stay as they are and the last may only grow at its end
      (the retroactive coda). */
  predicate Extends(a: seq<seq<Phone>>, b: seq<seq<Phone>>) {
    |a| <= |b| && (a != [] ==> a[..|a| - 1] == b[..|a| - 1] && a[|a| - 1] <= b[|a| - 1])
  }

  lemma ExtendsTrans(a: seq<seq<Phone>>, b: seq<seq<Phone>>, c: seq<seq<Phone>>)
    requires Extends(a, b) && Extends(b, c)
    ensures Extends(a, c)
  {
    if a != [] {
      var n := |a| - 1;
      assert b[..n] == b[..|b| - 1][..n];
      assert c[..n] == c[..|b| - 1][..n];
      if n < |b| - 1 {
        assert b[n] == c[n];
      }
    }
  }

  lemma StepExtends(s: State, p: Phone, onset: bool)
    ensures Extends(s.done, Step(s, p, onset).done)
  {
    var d := Step(s, p, onset).done;
    if s.done != [] {
      var n := |s.done| - 1;
      if d == s.done + [s.cur + [p]] {
        assert d[..n] == s.done[..n] && d[n] == s.done[n];
      } else if d == ExtendLast(s.done, p) {
        assert d[n] == s.done[n] + [p];
      }
    }
  }

  /** The scan never rewrites a completed syllable except by appending a
      coda to the last one. */
  lemma {:induction false} DriveExtends(s: State, ts: seq<Phone>)
    ensures Extends(s.done, Drive(s, ts).done)
    decreases |ts|
  {
    if ts != [] {
      var s' := Step(s, ts[0], Onset(ts[1..]));
      StepExtends(s, ts[0], Onset(ts[1..]));
      DriveExtends(s', ts[1..]);
      ExtendsTrans(s.done, s'.done, Drive(s', ts[1..]).done);
    }
  }

  /** A consonant followed by a nucleus anywhere in the phones: the
      consonant sees the nucleus ahead, the nucleus closes the syllable
      whatever follows, and every earlier phone sees the same lookahead as
      it would with the pair at the end. */
  lemma {:induction false} DriveSplit(s: State, pre: seq<Phone>, c: Phone, v: Phone, post: seq<Phone>)
    requires c.cls == Consonant && v.cls.IsNucleus()
    ensures Drive(s, pre + [c, v] + post) == Drive(Step(Step(Drive(s, pre), c, true), v, false), post)
    decreases |pre|
  {
    if pre == [] {
      assert pre + [c, v] + post == [c] + ([v] + post);
      DriveCons(s, c, [v] + post);
      DriveCons(Step(s, c, true), v, post);
    } else {
      var p, rest := pre[0], pre[1..];
      assert pre + [c, v] + post == [p] + (rest + [c, v] + post);
      DriveCons(s, p, rest + [c, v] + post);
      assert Onset(rest + [c, v] + post) == Onset(rest) by {
        if rest != [] {
          assert (rest + [c, v] + post)[0] == rest[0];
        }
      }
      DriveSplit(Step(s, p, Onset(rest)), rest, c, v, post);
    }
  }

  /** The scan seen with the syllable in progress counted as one more
      syllable: a step never rewrites it either, it only adds syllables or
      extends the last one. */
  lemma StepFinishExtends(s: State, p: Phone, onset: bool)
    ensures Extends(Finish(s), Finish(Step(s, p, onset)))
  {
    var s' := Step(s, p, onset);
    var a, b := Finish(s), Finish(s');
    if a != [] {
      var n := |a| - 1;
      if s.cur != [] {
        assert a == s.done + [s.cur] && a[..n] == s.done && a[n] == s.cur;
        if p.cls.IsNucleus() || (p.cls == Consonant && !onset) {
          assert b == s.done + [s.cur + [p]];
          assert b[..n] == s.done && b[n] == s.cur + [p];
        } else if p.cls == Consonant {
          assert b == s.done + [s.cur + [p]];
          assert b[..n] == s.done && b[n] == s.cur + [p];
        } else {
          assert b == a;
        }
      } else {
        assert a == s.done;
        if p.cls.IsNucleus() || (p.cls == Consonant && onset) {
          assert b[..|a|] == s.done;
          assert b[..n] == a[..n] && b[n] == a[n];
        } else if p.cls == Consonant {
          assert b == ExtendLast(s.done, p);
          assert b[n] == a[n] + [p];
        } else {
          assert b == a;
        }
      }
    }
  }

  lemma {:induction false} DriveFinishExtends(s: State, ts: seq<Phone>)
    ensures Extends(Finish(s), Finish(Drive(s, ts)))
    decreases |ts|
  {
    if ts != [] {
      var s' := Step(s, ts[0], Onset(ts[1..]));
      StepFinishExtends(s, ts[0], Onset(ts[1..]));
      DriveFinishExtends(s', ts[1..]);
      ExtendsTrans(Finish(s), Finish(s'), Finish(Drive(s', ts[1..])));
    }
  }

  /** A phone that is not a nucleus, anywhere in the phones: the phones
      before it see the same lookahead as they would with it removed, and it
      sees the phone after it. */
  lemma {:induction false} DriveSplit1(s: State, pre: seq<Phone>, c: Phone, rest: seq<Phone>)
    requires !c.cls.IsNucleus()
    ensures Drive(s, pre + [c] + rest) == Drive(Step(Drive(s, pre), c, Onset(rest)), rest)
    decreases |pre|
  {
    if pre == [] {
      assert pre + [c] + rest == [c] + rest;
      DriveCons(s, c, rest);
    } else {
      var p, tail := pre[0], pre[1..];
      assert pre + [c] + rest == [p] + (tail + [c] + rest);
      DriveCons(s, p, tail + [c] + rest);
      assert Onset(tail + [c] + rest) == Onset(tail) by {
        if tail != [] {
          assert (tail + [c] + rest)[0] == tail[0];
        }
      }
      DriveSplit1(Step(s, p, Onset(tail)), tail, c, rest);
    }
  }

  /** The coda rule, wherever the consonant stands in the word: a consonant
      not followed by a vowel or diphthong joins the last syllable of the
      phones before it (closing it if it was in progress, or appended to it
      if it was already complete), and the syllables before that one stay
      as they are. With no syllable before it, it starts the first one. */
  lemma CodaJoinsPrevious(pre: seq<Phone>, c: Phone, rest: seq<Phone>)
    requires c.cls == Consonant && !Onset(rest)
    ensures var F := Segment(pre);
            var gs := Segment(pre + [c] + rest);
            if F == [] then gs != [] && [c] <= gs[0]
            else |F| <= |gs| && gs[..|F| - 1] == F[..|F| - 1] && F[|F| - 1] + [c] <= gs[|F| - 1]
  {
    var f := Drive(Start, pre);
    var s' := Step(f, c, false);
    DriveSplit1(Start, pre, c, rest);
    DriveFinishExtends(s', rest);
    var F, G := Finish(f), Finish(s');
    if F == [] {
      assert f.done == [] && f.cur == [];
      assert s' == State([], [c]);
      assert G == [[c]];
    } else {
      var n := |F| - 1;
      if f.cur != [] {
        assert G == f.done + [f.cur + [c]];
        assert G[..n] == F[..n] && G[n] == F[n] + [c];
      } else {
        assert G == ExtendLast(f.done, c);
        assert G[..n] == F[..n] && G[n] == F[n] + [c];
      }
    }
  }

  /** The maximal onset rule: a consonant right before a vowel or diphthong
      is held as its onset. Wherever the pair stands in the word, the
      syllables completed before the consonant are kept, and the next
      syllable begins with what was in progress followed by the consonant
      and its nucleus. */
  lemma OnsetJoinsNucleus(pre: seq<Phone>, c: Phone, v: Phone, post: seq<Phone>)
    requires c.cls == Consonant && v.cls.IsNucleus()
    ensures var f := Drive(Start, pre);
            var gs := Segment(pre + [c, v] + post);
            && |f.done| < |gs|
            && gs[..|f.done|] == f.done
            && f.cur + [c, v] <= gs[|f.done|]
  {
    var f := Drive(Start, pre);
    DriveSplit(Start, pre, c, v, post);
    var g := State(f.done + [f.cur + [c, v]], []);
    assert Step(f, c, true) == State(f.done, f.cur + [c]);
    assert Step(State(f.done, f.cur + [c]), v, false) == g by {
      assert f.cur + [c] + [v] == f.cur + [c, v];
    }
    var d := Drive(g, post);
    DriveExtends(g, post);
    var n := |f.done|;
    assert g.done[..n] == f.done && g.done[n] == f.cur + [c, v];
    var gs := Segment(pre + [c, v] + post);
    assert gs == Finish(d);
    assert gs[..n] == d.done[..n] && gs[n] == d.done[n];
  }

  /** Closing the syllable in progress with one more phone, spelled out. */
  lemma SpelledClose(s: State, p: Phone)
    ensures SpellEach(s.done + [s.cur + [p]]) == SpellEach(s.done) + [Spell(s.cur) + p.sym]
  {
    SpellPush(s.cur, p);
    SpellEachPush(s.done, s.cur + [p]);
  }

  /** The ghost side of one pass of the index loop: the phone at i, where
      the next pass starts, and the scan state carried over. */
  lemma Advance(w: string, i: nat, g: State) returns (p: Phone, next: nat)
    requires i < |w| && AllWellFormed(g.cur)
    requires Finish(Drive(g, TokenizeFrom(w, i))) == Segment(Tokenize(w))
    ensures next == i + ClassAt(w, i).Width() && next <= |w|
    ensures p == Phone(ClassAt(w, i), w[i..next])
    ensures AllWellFormed(Step(g, p, Onset(TokenizeFrom(w, next))).cur)
    ensures Finish(Drive(Step(g, p, Onset(TokenizeFrom(w, next))), TokenizeFrom(w, next))) ==
              Segment(Tokenize(w))
  {
    p := TokenizeUnfold(w, i);
    next := i + p.cls.Width();
    DriveCons(g, p, TokenizeFrom(w, next));
    StepWellFormed(g, p, Onset(TokenizeFrom(w, next)));
  }

  /** One pass of the index loop at position i: the phone there is read
      and the syllables are updated as `Step` says, spelled out. */
  method ScanPhone(w: string, i: nat, syllables: seq<string>, current: string, ghost g: State)
    returns (next: nat, syllables': seq<string>, current': string)
    requires i < |w|
    requires syllables == SpellEach(g.done) && current == Spell(g.cur) && AllWellFormed(g.cur)
    ensures next == i + ClassAt(w, i).Width()
    ensures var g' := Step(g, Phone(ClassAt(w, i), w[i..next]), Onset(TokenizeFrom(w, next)));
            syllables' == SpellEach(g'.done) && current' == Spell(g'.cur)
  {
    ghost var p := Phone(ClassAt(w, i), w[i..i + ClassAt(w, i).Width()]);
    ghost var g' := Step(g, p, Onset(TokenizeFrom(w, i + p.cls.Width())));
    SpellEmpty(g.cur);
    syllables', current' := syllables, current;
    if DiphthongAt(w, i) {
      assert p.cls == Diphthong && p.sym == w[i..i + 2];
      assert g' == State(g.done + [g.cur + [p]], []);
      SpelledClose(g, p);
      current' := current' + w[i..i + 2];
      syllables' := syllables' + [current'];
      current' := [];
      next := i + 2;
    } else if w[i] in Vowels {
      assert p.cls == Vowel && p.sym == [w[i]];
      assert g' == State(g.done + [g.cur + [p]], []);
      SpelledClose(g, p);
      current' := current' + [w[i]];
      syllables' := syllables' + [current'];
      current' := [];
      next := i + 1;
    } else if w[i] in Consonants {
      assert p.cls == Consonant && p.sym == [w[i]];
      OnsetAhead(w, i + 1);
      if i < |w| - 1 && (w[i + 1] in Vowels || DiphthongAt(w, i + 1)) {
        assert g' == State(g.done, g.cur + [p]);
        SpellPush(g.cur, p);
        current' := current' + [w[i]];
      } else if current' != [] {
        assert g' == State(g.done + [g.cur + [p]], []);
        SpelledClose(g, p);
        current' := current' + [w[i]];
        syllables' := syllables' + [current'];
        current' := [];
      } else if syllables' != [] {
        assert g' == State(ExtendLast(g.done, p), []);
        SpellEachExtendLast(g.done, p);
        syllables' := syllables'[|syllables'| - 1 := syllables'[|syllables'| - 1] + [w[i]]];
      } else {
        assert g' == State(g.done, g.cur + [p]);
        SpellPush(g.cur, p);
        current' := current' + [w[i]];
      }
      next := i + 1;
    } else {
      assert p.cls == Unknown && g' == g;
      next := i + 1;
    }
  }

  /** One pass of the index loop together with the scan state it carries:
      the loop invariant holds again at the next position. */
  method Pass(w: string, i: nat, syllables: seq<string>, current: string, ghost g: State)
    returns (next: nat, syllables': seq<string>, current': string, ghost g': State)
    requires i < |w|
    requires syllables == SpellEach(g.done) && current == Spell(g.cur) && AllWellFormed(g.cur)
    requires Finish(Drive(g, TokenizeFrom(w, i))) == Segment(Tokenize(w))
    ensures i < next <= |w|
    ensures syllables' == SpellEach(g'.done) && current' == Spell(g'.cur) && AllWellFormed(g'.cur)
    ensures Finish(Drive(g', TokenizeFrom(w, next))) == Segment(Tokenize(w))
  {
    ghost var p, n := Advance(w, i, g);
    next, syllables', current' := ScanPhone(w, i, syllables, current, g);
    g' := Step(g, p, Onset(TokenizeFrom(w, n)));
  }

  /** Once the index reaches the end, no phones remain to be read. */
  lemma ScanDone(w: string, i: nat, g: State)
    requires i == |w|
    requires Finish(Drive(g, TokenizeFrom(w, i))) == Segment(Tokenize(w))
    ensures Finish(g) == Segment(Tokenize(w))
  {
  }

  /** The index loop of the segmenter over a transcription `w`. */
  method DivideIntoSyllablesSsp(w: string) returns (syllables: seq<string>)
    ensures syllables == SpellEach(Segment(Tokenize(w)))
    ensures Flatten(syllables) == Kept(w)
  {
    syllables := [];
    var current: string := [];
    ghost var g := Start;
    var i := 0;
    while i < |w|
      invariant i <= |w|
      invariant syllables == SpellEach(g.done)
      invariant current == Spell(g.cur)
      invariant AllWellFormed(g.cur)
      invariant Finish(Drive(g, TokenizeFrom(w, i))) == Segment(Tokenize(w))
      decreases |w| - i
    {
      i, syllables, current, g := Pass(w, i, syllables, current, g);
    }
    ScanDone(w, i, g);
    syllables := EndScan(syllables, current, g.done, g.cur);
    SpelledGroups(Tokenize(w), Segment(Tokenize(w)));
  }
}
